=== FILE: README.md ===
# SimpleGrid in Dafny

A model of the core of JavaSimpleGrid's `SimpleGrid` class. A grid is a
stack of equally sized layers of Java `int` cell values, together with a
table that maps each value to an appearance: a cell colour, a text glyph
with its colour, and an image. The model covers:

- **Layer store** (`grid.dfy`, module `SimpleGrid`): the constructor,
  `isOOB`, `addLayer`, every overload of `set` and `get`, and `fill`,
  `replace`, `fillRow` and `fillColumn`. Writes to a layer that does not
  exist are silent no-ops. Reads of such a layer raise
  IllegalArgumentException.
- **Value table** (`value_table.dfy`, module `ValueTable`):
  `ensureValueData` and the four setters, as upserts into a
  `map<Int32, ValueData>`. Value 0 starts with a null colour. Entries
  created later start white.
- **Compositor** (`compositor.dfy`, module `Compositor`): the per-cell
  reduction in `GridPanel.paintComponent`. It produces a final colour, a
  final glyph and an ordered list of image and text draws. The painter's
  upward scan is proved against an independent downward search for the
  topmost opaque layer and the topmost text layer.
- **Pointer mapping** (`pointer.dfy`, module `Pointer`): where each cell's
  box is painted, the panel's size, and `getMouseCell`.
- **Text save and load** (`persistence.dfy`, module `Persistence`, with
  `decimal.dfy` for `append(int)` and `Integer.parseInt`, and `text.dfy`
  for `String.split`): `saveGrid` and `loadGrid`, including how
  `loadGrid` writes into live layers as it reads.

Java exceptions are `Result` errors. Nullable references are `Option`.
Colours and images are opaque tokens compared by equality. Because
`loadGrid` keeps what it wrote before an exception, its result is the
grid as it stands plus the exception, if any.

Only `set` gives a written value a table entry: it calls
`ensureValueData` at line 322 of `src/SimpleGrid.java`. `fill`, `replace`,
`fillRow`, `fillColumn` and `loadGrid` write values without one. The model
does the same, and the second finding below follows from it.

## Model

| member | source | states |
|---|---|---|
| SimpleGrid.NewGrid | src/SimpleGrid.java:83-92 | Construction succeeds exactly when width, height and cell size are positive, and fails with IllegalArgument otherwise. A new grid keeps the given width, height, cell size and gridline weight. It has one all-zero layer, and its table binds only 0, to a null colour. |
| SimpleGrid.IsOOBPoint | src/SimpleGrid.java:148-153 | A position counts as in bounds exactly when it is non-null and `get` can read it on every layer. Null is out of bounds. |
| SimpleGrid.IsOOB | src/SimpleGrid.java:164-166 | On a well-formed grid, (x, y) is in bounds exactly when every layer stores a cell at row y, column x. |
| SimpleGrid.IsOOBMatchesStorage | src/SimpleGrid.java:164-166 | `isOOB(x, y)` is false exactly when (x, y) indexes a stored cell of the layer. |
| SimpleGrid.AddLayer | src/SimpleGrid.java:194-196 | Adds one all-zero layer on top. The existing layers, the dimensions and the table are unchanged. |
| SimpleGrid.Get | src/SimpleGrid.java:540-548 | IllegalArgument exactly when the layer is missing, whatever the coordinates. GridIndexOutOfBounds exactly when the layer exists and the coordinates are off the grid. A value otherwise. |
| SimpleGrid.GetPoint | src/SimpleGrid.java:520-525 | A null position raises NullPointer before the layer is checked. Otherwise a missing layer raises IllegalArgument, an off-grid position on an existing layer raises GridIndexOutOfBounds, and success returns the stored cell of that layer. |
| SimpleGrid.GetBase | src/SimpleGrid.java:503-505 | Reading layer 0 fails exactly when the coordinates are off the grid, and then only with GridIndexOutOfBounds. |
| SimpleGrid.GetBasePoint | src/SimpleGrid.java:487-489 | Null raises NullPointer. Otherwise reading layer 0 fails only off the grid, with GridIndexOutOfBounds. |
| SimpleGrid.Set | src/SimpleGrid.java:314-328 | A missing layer is a silent no-op. Off-grid coordinates on an existing layer raise GridIndexOutOfBounds. A successful write leaves every other cell of every layer as it was, keeps every existing table entry exactly as it was, adds no entry but the written value's, and gives that value the default entry if it had none. |
| SimpleGrid.SetPoint | src/SimpleGrid.java:293-298 | A null position or a missing layer changes nothing. Otherwise the write fails exactly off the grid, and only with GridIndexOutOfBounds. On success `get` at that position returns the value, every other cell of every layer reads as before, the value has a table entry (the default white one if it had none), no other entry is added, and every existing entry is unchanged. |
| SimpleGrid.SetBase | src/SimpleGrid.java:277-279 | A write to layer 0 fails exactly off the grid, and only with GridIndexOutOfBounds. On success the cell reads back as the value, every other cell of every layer reads as before, the value has a table entry (the default white one if it had none), no other entry is added, and every existing entry is unchanged. |
| SimpleGrid.SetBasePoint | src/SimpleGrid.java:260-262 | Null changes nothing. Otherwise a write to layer 0 fails exactly off the grid, and only with GridIndexOutOfBounds. On success it reads back, every other cell of every layer reads as before, the value has a table entry (the default white one if it had none), no other entry is added, and every existing entry is unchanged. |
| SimpleGrid.SetThenGet | src/SimpleGrid.java:314-328 | Set/get round trip: after an in-bounds `set`, `get` returns the written value, every other cell of every layer reads as before, and the value has a table entry. |
| SimpleGrid.MissingLayerAsymmetry | src/SimpleGrid.java:540-546 | On a missing layer, `set`, `fill`, `replace`, `fillRow` and `fillColumn` return the grid unchanged without raising anything, while `get` raises IllegalArgument even for off-grid coordinates. |
| SimpleGrid.Fill | src/SimpleGrid.java:353-363 | Every cell of an existing layer becomes the value. Other layers and the table are unchanged. A missing layer changes nothing. |
| SimpleGrid.FillBase | src/SimpleGrid.java:339-341 | Every cell of layer 0 becomes the value, and the other layers are untouched. |
| SimpleGrid.FillThenGet | src/SimpleGrid.java:353-363 | After `fill`, every cell of the layer reads as the value, and any other layer reads as before. |
| SimpleGrid.Replace | src/SimpleGrid.java:389-401 | Exactly the cells holding the current value change, to the new value. Other layers and the table are unchanged. |
| SimpleGrid.ReplaceBase | src/SimpleGrid.java:374-376 | The same as `replace` on layer 0. Layers above 0 are untouched. |
| SimpleGrid.ReplaceRemovesAndIsIdempotent | src/SimpleGrid.java:389-401 | After `replace(a, b)` with a != b, no cell of the layer holds a. Repeating the same `replace` changes nothing. |
| SimpleGrid.FillRow | src/SimpleGrid.java:430-437 | A missing layer or an off-grid row is a silent no-op. Otherwise exactly that row of that layer becomes the value. |
| SimpleGrid.FillRowBase | src/SimpleGrid.java:414-416 | The same as `fillRow` on layer 0. Other rows read as before, and the layers above 0 are untouched. |
| SimpleGrid.FillColumn | src/SimpleGrid.java:466-473 | A missing layer or an off-grid column is a silent no-op. Otherwise exactly that column of that layer becomes the value. |
| SimpleGrid.FillColumnBase | src/SimpleGrid.java:450-452 | The same as `fillColumn` on layer 0. Other columns read as before, and the layers above 0 are untouched. |
| ValueTable.InitialTable | src/SimpleGrid.java:91-92 | The first table has only value 0, with a null colour, black text, no glyph and no image. |
| ValueTable.EnsureValueData | src/SimpleGrid.java:570-574 | Gives the value a default entry (white, black text, no glyph, no image) only if it has none. Every other entry is unchanged, and an existing entry is kept. |
| ValueTable.SetColor | src/SimpleGrid.java:586-590 | Upsert: the value's entry gets the colour, null allowed. Its other fields keep their old or default values, and other entries are unchanged. |
| ValueTable.SetTextColor | src/SimpleGrid.java:602-609 | A null text colour raises NullPointer, and only a null one does, before the table is touched. Otherwise an upsert of the text colour. |
| ValueTable.SetText | src/SimpleGrid.java:621-625 | Upsert of the glyph. The other fields keep their old or default values. |
| ValueTable.SetImage | src/SimpleGrid.java:638-642 | Upsert of the image, null allowed. The other fields keep their old or default values. |
| ValueTable.ColorAndTextCommute | src/SimpleGrid.java:586-625 | Setting a value's colour and its glyph commute, and neither undoes the other. |
| ValueTable.SettersNeverRemove | src/SimpleGrid.java:570-642 | No setter removes an entry from the table. |
| Compositor.TopOpaqueBelow | src/SimpleGrid.java:920-934 | Reference definition: the highest layer at or above 1 with a non-null colour, or 0. Every layer above it is transparent. |
| Compositor.TopTextBelow | src/SimpleGrid.java:920-934 | Reference definition: the highest layer at or above 1 with a glyph, or 0. No layer above it has a glyph. |
| Compositor.Seed | src/SimpleGrid.java:909-917 | The loop's starting state, read from layer 0, agrees with the downward reference search over that one layer. |
| Compositor.Step | src/SimpleGrid.java:920-934 | One iteration of the first loop turns a state that agrees with the reference search over layers below i into one that agrees with it over layers up to i. |
| Compositor.ScanFrom | src/SimpleGrid.java:909-934 | The painter's first loop ends with the colour, glyph, glyph colour and the two layer indices that the downward reference search describes. |
| Compositor.DrawFrom | src/SimpleGrid.java:942-955 | With no glyph to place, the second loop draws exactly the non-null images of the remaining layers, bottom to top. With one, it draws the images up to and including the text layer, then the glyph once, then the images above. |
| Compositor.Composite | src/SimpleGrid.java:909-955 | The final colour is that of the topmost opaque layer at or above 1, else layer 0's colour, or white for null. The glyph is that of the topmost text layer when no opaque layer is above it, else none. The draw list has the order promised above. |
| Compositor.CompositeDrawsImagesAboveOpaque | src/SimpleGrid.java:942-955 | The images drawn are exactly the non-null images from the topmost opaque layer up, in ascending order. A glyph is drawn once if there is one, and never otherwise. |
| Compositor.OpaqueLayerOccludes | src/SimpleGrid.java:924-928 | Two stacks that agree from an opaque layer k >= 1 upward paint the same colour, glyph and draw list. Nothing below k shows. |
| Compositor.SingleLayerColor | src/SimpleGrid.java:909-912 | A one-layer cell paints its value's colour, or white if that is null, and shows its value's glyph. |
| Compositor.OpaqueLayerHidesGlyphBelow | src/SimpleGrid.java:924-933 | With a glyph on layer 0 and an opaque glyph-less layer 1, the cell paints layer 1's colour and draws no text. |
| Compositor.CellStack | src/SimpleGrid.java:909-922 | The painter's table lookups for a cell. They succeed exactly when every layer's value has an entry, and a missing entry is a NullPointer. Each looked-up entry is the entry of the value `get` returns for that layer. |
| Compositor.RenderCell | src/SimpleGrid.java:909-955 | A cell paints exactly when its lookups succeed, and fails with NullPointer otherwise. A painted cell has the colour of the topmost opaque layer, or layer 0's colour, or white. It shows the topmost glyph unless an opaque layer lies above it, and its draw list has the order `Composite` promises, all for the entries its lookups found. |
| Compositor.CoveredRenders | src/SimpleGrid.java:909-922 | When every stored value has a table entry, every cell paints without error. |
| Compositor.CoverageKeptBySetAndAddLayer | src/SimpleGrid.java:314-322 | A new grid has an entry for every stored value. `set` keeps it that way. So does `addLayer`, when 0 has an entry, which every new grid has and no setter removes. |
| Compositor.FillCanBreakRendering | src/SimpleGrid.java:353-363 | Filling layer 0 with a value that has no entry leaves a stored value without one, and painting cell (0, 0) then raises NullPointer. |
| Compositor.WithEntry | src/SimpleGrid.java:570-574 | `ensureValueData` on a grid leaves the layers alone, keeps every existing entry exactly as it was, and adds only the value's entry, with the default appearance, when it had none. |
| Compositor.BulkEditsWithEntryKeepCoverage | src/SimpleGrid.java:353-473 | Followed by `ensureValueData`, as `set` does, `fill`, `replace`, `fillRow` and `fillColumn` keep an entry for every stored value. |
| Pointer.BoxesLaidEndToEnd | src/SimpleGrid.java:100-101 | Walking an axis as one gridline, then a box and a gridline per cell, cell n's box starts where the walk past n cells arrives, and a panel of n cells ends there. |
| Pointer.BoxesInsidePanel | src/SimpleGrid.java:938-940 | Every painted box of a grid lies inside the panel, after the leading gridline and followed by at least one gridline's width. |
| Pointer.BoxesDisjoint | src/SimpleGrid.java:938-940 | No pixel lies in the painted boxes of two different cells. |
| Pointer.MouseCell | src/SimpleGrid.java:1009-1031 | No pointer gives no cell. A returned cell's painted box contains the pixel on both axes, and the pixel is never the box's first row or column. |
| Pointer.AxisMapsToCell | src/SimpleGrid.java:1017-1024 | Along one axis, quotient c with a remainder above the gridline weight means exactly: inside cell c's box, but not on its first pixel. |
| Pointer.MouseCellExactly | src/SimpleGrid.java:1017-1029 | A pixel maps to cell (cx, cy) if and only if it lies in that cell's painted box, off the box's first row and column. |
| Pointer.MouseCellInBounds | src/SimpleGrid.java:100-101 | A pixel inside the panel's extent maps to no cell outside the grid. |
| Pointer.MouseCellExamples | src/SimpleGrid.java:1017-1029 | With 50-pixel cells and 5-pixel gridlines: pixels 5 and 55 map to no cell, pixel 6 maps to cell 0, pixel 61 to cell 1, and no pointer gives no cell. |
| Pointer.MouseCellMissesBoxOrigin | src/SimpleGrid.java:1024-1028 | As written: the first pixel of every painted box is filled for the cell but maps to no cell. |
| Pointer.MouseCellCorrected | src/SimpleGrid.java:1009-1031 | `getMouseCell` with `>=` in place of `>`. A returned cell's box contains the pixel. |
| Pointer.MouseCellCorrectedMatchesBoxes | src/SimpleGrid.java:938-940 | With the corrected test, a pixel maps to a cell if and only if it lies in the box painted for that cell. |
| Decimal.IntToText | src/SimpleGrid.java:695-701 | `append(int)` writes an optional minus sign followed by digits, never a space or a colon. |
| Decimal.ParseInt | src/SimpleGrid.java:744 | A text `Integer.parseInt` accepts is an optional sign followed by at least one digit and nothing else, and the sign fixes the result's sign. |
| Decimal.ParseIntOfText | src/SimpleGrid.java:695-744 | Parsing the text `append(int)` writes gives back the same int, for every Java int. |
| Decimal.ParseIntExamples | src/SimpleGrid.java:744 | "+007" gives 7 and "-12" gives -12. "", "-", "+", " 1", "1 " and a value beyond the int range are rejected. |
| Text.Fields | src/SimpleGrid.java:731 | All the separator-free fields of a text, and joining them with the separator gives the text back. |
| Text.DropTrailingEmpty | src/SimpleGrid.java:731 | Removes exactly the run of trailing empty fields, and nothing else. |
| Text.Split | src/SimpleGrid.java:731 | `String.split`: a text without the separator is its own single field. Otherwise the result is all the separator-delimited fields with the run of trailing empty ones removed: a prefix of them, the last one kept is not empty, and every one dropped is empty. |
| Text.Join | src/SimpleGrid.java:695-708 | A join starts with its first part, followed by the separator when there is a second part. |
| Text.SplitOfJoin | src/SimpleGrid.java:705-731 | Splitting a join of separator-free parts gives the parts back, when the last part is not empty. |
| Text.SplitExamples | src/SimpleGrid.java:731 | ":" splits into nothing, "" into one empty field, and ":7" into "" and "7". |
| Text.SplitDropsTrailingFields | src/SimpleGrid.java:731 | Trailing separators are lost: "1 2::" splits into the single field "1 2". |
| Persistence.Flatten | src/SimpleGrid.java:696-703 | A layer's rows laid end to end have height times width cells. |
| Persistence.FlattenAt | src/SimpleGrid.java:743 | Cell (x, y) sits at index y * width + x of the row-major list. |
| Persistence.SaveLayer | src/SimpleGrid.java:692-703 | A layer's text, split at the spaces, gives one decimal token per cell in row-major order. It is never empty and never contains ':'. |
| Persistence.LayerTexts | src/SimpleGrid.java:691-703 | One saved text per layer, none empty and none containing ':'. |
| Persistence.SaveGrid | src/SimpleGrid.java:687-712 | Splitting `saveGrid`'s text at ':' gives back each layer's text. The last layer's text is not dropped, because it is never empty. |
| Persistence.TakeParsed | src/SimpleGrid.java:741-744 | The values parsed before the first failure, in order. A missing token is ArrayIndexOutOfBounds and a rejected token is NumberFormat, whichever index comes first. No error exactly when all the needed tokens parse. |
| Persistence.ReadCells | src/SimpleGrid.java:740-744 | The same as `TakeParsed`, stated on the tokens themselves through `parseInt`. |
| Persistence.OverwriteWithOwnCells | src/SimpleGrid.java:741-744 | Writing a layer's own cells over it leaves it unchanged. |
| Persistence.FlattenOverwrite | src/SimpleGrid.java:741-744 | Writing at most a layer's worth of values over it, read row-major: the layer begins with exactly those values, and every later cell is as it was. |
| Persistence.FlattenOverwriteAt | src/SimpleGrid.java:741-744 | At each row-major index, the cell after writing is the value written there, or the old cell past the values. |
| Persistence.OverwriteNothing | src/SimpleGrid.java:744 | A layer whose first token fails is left unchanged. |
| Persistence.GrowTo | src/SimpleGrid.java:733-736 | Adds all-zero layers until there is one per text. The count never decreases, and existing layers, the dimensions and the table are kept. |
| Persistence.LoadStep | src/SimpleGrid.java:740-746 | Loading one text changes only its own layer. |
| Persistence.LoadLayers | src/SimpleGrid.java:739-747 | The loading loop keeps the dimensions, the layer count and the table. |
| Persistence.LoadLayersEffect | src/SimpleGrid.java:739-747 | The loop succeeds exactly when every text is readable, and otherwise raises the error that reading the first unreadable text raises: ArrayIndexOutOfBounds when its tokens run out first, NumberFormat when a bad token comes first. Each layer up to and including the first unreadable text gets what that text yields. Every later layer, and every layer past the texts, is untouched. |
| Persistence.LoadGrid | src/SimpleGrid.java:730-748 | The layer count becomes the larger of the old count and the text count. Surplus layers are kept. The table and the dimensions are unchanged. The load succeeds exactly when every layer text is readable. Otherwise it raises the error of reading the first unreadable text, ArrayIndexOutOfBounds or NumberFormat. Every layer up to and including that text has the values read from its text written over it, row-major (see `FlattenOverwrite`). The layers after it are as before, or all zero if they were added. |
| Persistence.LoadErrorOfGrown | src/SimpleGrid.java:739-744 | A failed load raises exactly the error that reading the first unreadable text raises, after all the texts before it were read whole. |
| Persistence.LayersOfGrown | src/SimpleGrid.java:733-746 | After a load, each layer up to and including the first unreadable text is the layer it had before the load, or zeros if it was added, with that text's values written over it. Each later layer is the layer it had before. |
| Persistence.LoadedLayersHold | src/SimpleGrid.java:739-747 | After a load without error, each loaded layer holds, row-major, the values its text spells. |
| Persistence.ReadCellsOfRender | src/SimpleGrid.java:701-744 | Reading back the tokens of a list of cells gives the list without error. |
| Persistence.SavedLayerReadsBack | src/SimpleGrid.java:691-744 | A saved layer's text is readable, and loading it over the layer gives the layer back. |
| Persistence.SavedTextsReadBack | src/SimpleGrid.java:691-744 | The same for every layer of a grid. |
| Persistence.LoadOfOwnTexts | src/SimpleGrid.java:739-747 | Loading texts that each read back as their own layer leaves the grid unchanged and raises nothing. |
| Persistence.LoadOfSave | src/SimpleGrid.java:687-748 | Save/load round trip: `loadGrid(saveGrid())` leaves the grid exactly as it was and raises nothing. |
| Persistence.LoadEdgeCases | src/SimpleGrid.java:730-744 | `loadGrid(":")` changes nothing and raises nothing. `loadGrid("")` raises NumberFormat and leaves the grid as it was. |

## Left out

- The Swing and AWT side: the frame, fonts, `drawCenteredChar`, `setupFont`, `saveGridImage` and `getGridImage`, `setGridlineColor`, `repaint`, `setAutoRepaint` and `tryRepaint`. These draw pixels or schedule repaints and hold no grid state. The compositor's output is a list of draw events.
- The mouse listener and the `mouseDown` flag (`isMouseDown`). These are host event callbacks on a volatile field. `getMousePosition` is modelled only through `getMouseCell`, which takes the host's pointer position as a parameter.
- `ValueData.hashCode` and `equals`. Nothing calls them.
- `Main.java` is not part of this model. It is a demonstration program.
- Colour values and image contents. Colours and images are tokens compared by equality.
- Pointer.MouseCell: does not model 32-bit overflow of the pixel arithmetic or of the panel extent, and takes only non-negative pixels, which are the only ones the host reports over the panel. It also requires `gridlineWeight >= 0`, which the constructor (line 84) does not check; with a negative weight the painted boxes overlap, and with `gridlineWeight == -cellSize` the divisions at line 1017 divide by zero and raise ArithmeticException. The model promises nothing for negative weights.
- Pointer.MouseCellCorrected: requires `gridlineWeight >= 0` and non-negative pixels, for the same reasons as `MouseCell`.
- Persistence.LoadGrid: takes a text, so `loadGrid(null)`, which raises NullPointerException at `gridData.split` (line 731), is not modelled: a Dafny string cannot be null.
- Decimal.ParseInt: accepts only the ASCII digits, while Java's `parseInt` also accepts other Unicode decimal digits. Its contract states only the shape of the texts it accepts and the sign of the result. The lemmas fix the result on the eight texts of `ParseIntExamples` and on every text `append(int)` writes (`ParseIntOfText`); for any other text no lemma states the result.
- Java `char` is 16-bit while Dafny's `char` is a Unicode scalar value. Glyphs are compared only for equality with `'\0'`, so this does not change any result.
- Concurrency: the grid is not thread-safe, and the model is sequential.

## Findings

| source | as written | input that shows it | evidently intended | confidence | as-written member | corrected member |
|---|---|---|---|---|---|---|
| src/SimpleGrid.java:1024 | `cellX > gridlineWeight && cellY > gridlineWeight` | cellSize 50, gridlineWeight 5, pointer at (5, 5): the painter fills this pixel as the first pixel of cell (0, 0) (lines 938-940), but `getMouseCell` returns null | `>=`, so that a pixel maps to a cell exactly when it is painted for that cell | medium, not executed | Pointer.MouseCellMissesBoxOrigin | Pointer.MouseCellCorrectedMatchesBoxes |
| src/SimpleGrid.java:353-363 | `fill` (and `replace`, `fillRow`, `fillColumn`) write values without `ensureValueData` | `fill(7)` on a new grid, then a paint: the lookup at line 909 finds no entry for 7 and dereferences null | create the entry as `set` does at line 322 | medium, not executed | Compositor.FillCanBreakRendering | Compositor.BulkEditsWithEntryKeepCoverage |

=== FILE: basics.dfy ===
/**
 * Shared vocabulary of the SimpleGrid model: Java's 32-bit `int` as a subset
 * type, nullable references as `Option`, exceptions as `Result`, and the
 * opaque tokens that stand for `java.awt.Color` and `BufferedImage`.
 */
module Basics {

  /** A Java `int`: the range of every stored cell value and of every value
      `Integer.parseInt` can return. */
  type Int32 = x: int | -0x8000_0000 <= x < 0x8000_0000

  /** A nullable reference: `None` plays the part of Java's `null`. */
  datatype Option<+T> = None | Some(value: T)

  /** The exceptions the grid can raise, one constructor per Java exception
      class that the modelled code throws. */
  datatype GridError =
    | IllegalArgument          // IllegalArgumentException
    | GridIndexOutOfBounds     // SimpleGrid.GridIndexOutOfBoundsException
    | NullPointer              // NullPointerException, thrown or by dereference
    | ArrayIndexOutOfBounds    // a missing token while loading
    | NumberFormat             // Integer.parseInt rejecting a token

  /** Either a value or the exception raised instead of returning it. */
  datatype Result<+T> = Ok(value: T) | Err(error: GridError)

  /** `java.awt.Point`: a pair of Java ints. */
  datatype Point = Point(x: int, y: int)

  /** A colour, compared by equality only; the token is its ARGB value. */
  datatype Color = Color(argb: int)

  /** `Color.WHITE`, the default cell colour. */
  const White: Color := Color(0xFFFF_FFFF)

  /** `Color.BLACK`, the default text colour. */
  const Black: Color := Color(0xFF00_0000)

  /** An image, compared by identity only. */
  datatype Image = Image(id: nat)

  /** A non-zero multiple of `pitch` is at least `pitch` away from 0. */
  lemma MultipleAwayFromZero(a: int, pitch: int)
    requires pitch > 0
    ensures a > 0 ==> a * pitch >= pitch
    ensures a < 0 ==> a * pitch <= -pitch
  {
  }
}

=== FILE: compositor.dfy ===
/**
 * The layer compositor of `GridPanel.paintComponent`: for one cell, the
 * per-layer appearances (layer 0 first) are reduced to a final cell colour,
 * a final glyph with its colour, and an ordered list of image and text draw
 * events painted over the cell's box.
 *
 * `ScanFrom` and `DrawFrom` follow the two loops of the painter. Their
 * results are characterised against `TopOpaque` and `TopText`, which find
 * the topmost opaque layer and the topmost layer with text by searching
 * downward from the top, independently of the painter's upward scan.
 */
module Compositor {
  import opened Basics
  import opened ValueTable
  import opened SimpleGrid

  /** One thing drawn over the cell's filled box, in painting order. */
  datatype DrawEvent = DrawImage(image: Image) | DrawText(glyph: char, color: Color)

  /** What is painted in one cell. */
  datatype Paint = Paint(color: Color, glyph: char, glyphColor: Color, draws: seq<DrawEvent>)

  /** The highest layer index in `1 .. n-1` with a non-null colour, or 0 if
      there is none. */
  function TopOpaqueBelow(ds: seq<ValueData>, n: nat): (h: nat)
    requires 1 <= n <= |ds|
    ensures h < n
    ensures h > 0 ==> ds[h].color.Some?
    ensures forall j :: h < j < n ==> ds[j].color.None?
    decreases n
  {
    if n == 1 then 0
    else if ds[n - 1].color.Some? then n - 1
    else TopOpaqueBelow(ds, n - 1)
  }

  /** The highest layer index in `1 .. n-1` with a glyph, or 0 if there is
      none. */
  function TopTextBelow(ds: seq<ValueData>, n: nat): (t: nat)
    requires 1 <= n <= |ds|
    ensures t < n
    ensures t > 0 ==> ds[t].text != NoGlyph
    ensures forall j :: t < j < n ==> ds[j].text == NoGlyph
    decreases n
  {
    if n == 1 then 0
    else if ds[n - 1].text != NoGlyph then n - 1
    else TopTextBelow(ds, n - 1)
  }

  function TopOpaque(ds: seq<ValueData>): nat
    requires |ds| >= 1
  {
    TopOpaqueBelow(ds, |ds|)
  }

  function TopText(ds: seq<ValueData>): nat
    requires |ds| >= 1
  {
    TopTextBelow(ds, |ds|)
  }

  /** The local variables of the painter's first loop. */
  datatype Scan = Scan(color: Color, glyph: char, glyphColor: Color, topOpaque: nat, topText: nat)

  /** What the first loop should hold after looking at layers `0 .. n-1`:
      both indices are the reference ones for that prefix, the colour is the
      topmost opaque one (layer 0's colour standing in, white if null), and
      the glyph is the topmost one unless an opaque layer lies above it. */
  ghost predicate Summarises(ds: seq<ValueData>, n: nat, s: Scan)
    requires 1 <= n <= |ds|
  {
    && s.topOpaque == TopOpaqueBelow(ds, n)
    && s.topText == TopTextBelow(ds, n)
    && s.color == (if s.topOpaque > 0 then ds[s.topOpaque].color.value else BaseColor(ds[0]))
    && s.glyph == (if s.topText >= s.topOpaque then ds[s.topText].text else NoGlyph)
    && s.glyphColor == ds[s.topText].textColor
  }

  /** The loop's starting state, taken from layer 0: it summarises the
      stack of that one layer. */
  function Seed(ds: seq<ValueData>): (s: Scan)
    requires |ds| >= 1
    ensures Summarises(ds, 1, s)
  {
    var base := ds[0];
    Scan(BaseColor(base), base.text, base.textColor, 0, 0)
  }

  /** One iteration of the first loop, at layer `i`: an opaque colour takes
      over and clears the glyph; then a glyph on the same layer takes over.
      A summary of layers `0 .. i-1` becomes one of layers `0 .. i`. */
  function Step(ds: seq<ValueData>, i: nat, s: Scan): (r: Scan)
    requires 1 <= i < |ds| && Summarises(ds, i, s)
    ensures Summarises(ds, i + 1, r)
  {
    var d := ds[i];
    var s' := if d.color.Some? then s.(color := d.color.value, glyph := NoGlyph, topOpaque := i) else s;
    if d.text != NoGlyph then s'.(glyph := d.text, glyphColor := d.textColor, topText := i) else s'
  }

  /** The first loop from layer `i` up. */
  function ScanFrom(ds: seq<ValueData>, i: nat, s: Scan): (r: Scan)
    requires 1 <= i <= |ds| && Summarises(ds, i, s)
    ensures Summarises(ds, |ds|, r)
    decreases |ds| - i
  {
    if i == |ds| then s else ScanFrom(ds, i + 1, Step(ds, i, s))
  }

  /** The draw event of a layer's image: none for a null image. */
  function ImageDraw(d: ValueData): seq<DrawEvent>
  {
    if d.image.Some? then [DrawImage(d.image.value)] else []
  }

  /** The non-null images of layers `lo .. hi-1`, bottom to top. */
  function ImagesBetween(ds: seq<ValueData>, lo: nat, hi: nat): seq<DrawEvent>
    requires lo <= hi <= |ds|
    decreases hi - lo
  {
    if lo == hi then [] else ImageDraw(ds[lo]) + ImagesBetween(ds, lo + 1, hi)
  }

  /** The second loop from layer `i` up: each layer's image, and the glyph
      right after the image of the layer it came from. With no glyph still
      to place it draws just the images of layers `i` and up, in order;
      with a glyph to place on layer `topText`, the images of layers
      `i .. topText`, then the glyph, then the images of the layers above. */
  function DrawFrom(ds: seq<ValueData>, i: nat, s: Scan): (r: seq<DrawEvent>)
    requires i <= |ds|
    ensures !(i <= s.topText < |ds| && s.glyph != NoGlyph) ==> r == ImagesBetween(ds, i, |ds|)
    ensures i <= s.topText < |ds| && s.glyph != NoGlyph ==>
              r == ImagesBetween(ds, i, s.topText + 1) + [DrawText(s.glyph, s.glyphColor)]
                   + ImagesBetween(ds, s.topText + 1, |ds|)
    decreases |ds| - i
  {
    if i == |ds| then []
    else
      var x := ImageDraw(ds[i]);
      var t := [DrawText(s.glyph, s.glyphColor)];
      var here := i == s.topText && s.glyph != NoGlyph;
      var rest := DrawFrom(ds, i + 1, s);
      var r := x + (if here then t else []) + rest;
      AppendNothing(x);
      assert ImagesBetween(ds, i, i + 1) == x + [];
      if here then
        assert r == x + t + rest;
        r
      else if i < s.topText < |ds| && s.glyph != NoGlyph then
        var a := ImagesBetween(ds, i + 1, s.topText + 1);
        assert ImagesBetween(ds, i, s.topText + 1) == x + a;
        PrependToGlyphRun(x, a, t, ImagesBetween(ds, s.topText + 1, |ds|));
        r
      else
        r
  }

  /* The two sequence identities below are kept as separate steps: stated
     inline, they made the proofs that use them sensitive to the solver's
     random seed. */

  lemma AppendNothing<T>(x: seq<T>)
    ensures x + [] == x
  {
  }

  lemma PrependToGlyphRun<T>(x: seq<T>, a: seq<T>, t: seq<T>, b: seq<T>)
    ensures x + (a + t + b) == (x + a) + t + b
  {
  }

  /** The painter's reduction of one cell's layers (layer 0 first). */
  function Composite(ds: seq<ValueData>): (p: Paint)
    requires |ds| >= 1
    ensures p.color == (if TopOpaque(ds) > 0 then ds[TopOpaque(ds)].color.value else BaseColor(ds[0]))
    ensures p.glyph == (if TopText(ds) >= TopOpaque(ds) then ds[TopText(ds)].text else NoGlyph)
    ensures p.glyphColor == ds[TopText(ds)].textColor
    ensures DrawsShaped(ds, p)
  {
    var s := ScanFrom(ds, 1, Seed(ds));
    Paint(s.color, s.glyph, s.glyphColor, DrawFrom(ds, s.topOpaque, s))
  }

  /** The draw list of `p` for the stack `ds`: without a glyph, the images
      of the layers from the topmost opaque one up; with one, the glyph
      lies right after the images up to its own layer. */
  ghost predicate DrawsShaped(ds: seq<ValueData>, p: Paint)
    requires |ds| >= 1
  {
    ShapedAt(ds, TopOpaque(ds), TopText(ds), p)
  }

  /** `DrawsShaped` with the opaque layer `h` and the text layer `t` given. */
  ghost predicate ShapedAt(ds: seq<ValueData>, h: nat, t: nat, p: Paint)
    requires h < |ds| && t < |ds|
  {
    && (p.glyph == NoGlyph ==> p.draws == ImagesBetween(ds, h, |ds|))
    && (p.glyph != NoGlyph ==>
          && h <= t
          && p.draws == ImagesBetween(ds, h, t + 1) + [DrawText(p.glyph, p.glyphColor)] + ImagesBetween(ds, t + 1, |ds|))
  }

  /** The image events of a draw list, text events left out. */
  function ImagesOnly(es: seq<DrawEvent>): seq<DrawEvent>
  {
    if |es| == 0 then []
    else (if es[0].DrawImage? then [es[0]] else []) + ImagesOnly(es[1..])
  }

  /** How many text events a draw list has. */
  function TextCount(es: seq<DrawEvent>): nat
  {
    if |es| == 0 then 0 else (if es[0].DrawText? then 1 else 0) + TextCount(es[1..])
  }

  /** The images of a run of layers split at `mid` are those below `mid`
      followed by those from `mid` up. */
  lemma {:induction false} ImagesBetweenSplit(ds: seq<ValueData>, lo: nat, mid: nat, hi: nat)
    requires lo <= mid <= hi <= |ds|
    ensures ImagesBetween(ds, lo, hi) == ImagesBetween(ds, lo, mid) + ImagesBetween(ds, mid, hi)
    decreases mid - lo
  {
    if lo < mid {
      ImagesBetweenSplit(ds, lo + 1, mid, hi);
    }
  }

  lemma {:induction false} ImagesOnlyAppend(a: seq<DrawEvent>, b: seq<DrawEvent>)
    ensures ImagesOnly(a + b) == ImagesOnly(a) + ImagesOnly(b)
    ensures TextCount(a + b) == TextCount(a) + TextCount(b)
    decreases |a|
  {
    if |a| == 0 {
      assert a + b == b;
    } else {
      var head := if a[0].DrawImage? then [a[0]] else [];
      assert (a + b)[0] == a[0];
      assert (a + b)[1..] == a[1..] + b;
      ImagesOnlyAppend(a[1..], b);
      assert ImagesOnly(a + b) == head + (ImagesOnly(a[1..]) + ImagesOnly(b));
      AppendAssociates(head, ImagesOnly(a[1..]), ImagesOnly(b));
    }
  }

  /* A separate step for the same reason as `AppendNothing`. */
  lemma AppendAssociates<T>(x: seq<T>, y: seq<T>, z: seq<T>)
    ensures x + (y + z) == (x + y) + z
  {
  }

  lemma {:induction false} ImagesBetweenHaveNoText(ds: seq<ValueData>, lo: nat, hi: nat)
    requires lo <= hi <= |ds|
    ensures ImagesOnly(ImagesBetween(ds, lo, hi)) == ImagesBetween(ds, lo, hi)
    ensures TextCount(ImagesBetween(ds, lo, hi)) == 0
    decreases hi - lo
  {
    if lo < hi {
      ImagesBetweenHaveNoText(ds, lo + 1, hi);
      ImagesOnlyAppend(ImageDraw(ds[lo]), ImagesBetween(ds, lo + 1, hi));
    }
  }

  /** A text event between two runs of image events leaves the images of
      both runs, in order, and counts once. */
  lemma TextBetweenImages(ds: seq<ValueData>, h: nat, t: nat, text: DrawEvent)
    requires h <= t < |ds| && text.DrawText?
    ensures ImagesOnly(ImagesBetween(ds, h, t + 1) + [text] + ImagesBetween(ds, t + 1, |ds|)) == ImagesBetween(ds, h, |ds|)
    ensures TextCount(ImagesBetween(ds, h, t + 1) + [text] + ImagesBetween(ds, t + 1, |ds|)) == 1
  {
    var a, b := ImagesBetween(ds, h, t + 1), ImagesBetween(ds, t + 1, |ds|);
    assert ImagesOnly([text]) == [] && TextCount([text]) == 1;
    ImagesBetweenHaveNoText(ds, h, t + 1);
    ImagesBetweenHaveNoText(ds, t + 1, |ds|);
    ImagesOnlyAppend(a, [text]);
    AppendNothing(a);
    assert ImagesOnly(a + [text]) == a;
    ImagesOnlyAppend(a + [text], b);
    ImagesBetweenSplit(ds, h, t + 1, |ds|);
  }

  /** What a draw list of the promised shape contains: the images of the
      layers from the topmost opaque one up, and one text event exactly
      when there is a glyph. */
  lemma ShapedDraws(ds: seq<ValueData>, p: Paint)
    requires |ds| >= 1 && DrawsShaped(ds, p)
    ensures ImagesOnly(p.draws) == ImagesBetween(ds, TopOpaque(ds), |ds|)
    ensures TextCount(p.draws) == if p.glyph == NoGlyph then 0 else 1
  {
    ShapedAtDraws(ds, TopOpaque(ds), TopText(ds), p);
  }

  lemma ShapedAtDraws(ds: seq<ValueData>, h: nat, t: nat, p: Paint)
    requires h < |ds| && t < |ds| && ShapedAt(ds, h, t, p)
    ensures ImagesOnly(p.draws) == ImagesBetween(ds, h, |ds|)
    ensures TextCount(p.draws) == if p.glyph == NoGlyph then 0 else 1
  {
    if p.glyph == NoGlyph {
      ImagesBetweenHaveNoText(ds, h, |ds|);
    } else {
      TextBetweenImages(ds, h, t, DrawText(p.glyph, p.glyphColor));
    }
  }

  /** Draw order: the images drawn are exactly the non-null images of the
      layers from the topmost opaque one up, bottom to top, and the glyph is
      drawn once if it is not empty and never otherwise. */
  lemma CompositeDrawsImagesAboveOpaque(ds: seq<ValueData>)
    requires |ds| >= 1
    ensures ImagesOnly(Composite(ds).draws) == ImagesBetween(ds, TopOpaque(ds), |ds|)
    ensures TextCount(Composite(ds).draws) == if Composite(ds).glyph == NoGlyph then 0 else 1
  {
    ShapedDraws(ds, Composite(ds));
  }

  /** Two stacks that agree on layers `lo .. hi-1` draw the same images
      there. */
  lemma {:induction false} ImagesBetweenAgree(ds: seq<ValueData>, ds': seq<ValueData>, lo: nat, hi: nat)
    requires lo <= hi <= |ds| == |ds'|
    requires forall j :: lo <= j < hi ==> ds[j] == ds'[j]
    ensures ImagesBetween(ds, lo, hi) == ImagesBetween(ds', lo, hi)
    decreases hi - lo
  {
    if lo < hi {
      ImagesBetweenAgree(ds, ds', lo + 1, hi);
    }
  }

  lemma {:induction false} TopOpaqueFromSuffix(ds: seq<ValueData>, ds': seq<ValueData>, k: nat, n: nat)
    requires 1 <= k < n <= |ds| == |ds'| && ds[k..] == ds'[k..] && ds[k].color.Some?
    ensures TopOpaqueBelow(ds, n) == TopOpaqueBelow(ds', n) >= k
    decreases n
  {
    assert ds[n - 1] == ds[k..][n - 1 - k] == ds'[n - 1];
    if n - 1 > k && ds[n - 1].color.None? {
      TopOpaqueFromSuffix(ds, ds', k, n - 1);
    }
  }

  lemma {:induction false} TopTextFromSuffix(ds: seq<ValueData>, ds': seq<ValueData>, k: nat, n: nat)
    requires 1 <= k <= n <= |ds| == |ds'| && ds[k..] == ds'[k..]
    ensures TopTextBelow(ds, n) >= k <==> TopTextBelow(ds', n) >= k
    ensures TopTextBelow(ds, n) >= k ==> TopTextBelow(ds, n) == TopTextBelow(ds', n)
    decreases n
  {
    if n > k {
      assert ds[n - 1] == ds[k..][n - 1 - k] == ds'[n - 1];
      if ds[n - 1].text == NoGlyph {
        TopTextFromSuffix(ds, ds', k, n - 1);
      }
    }
  }

  /** An opaque colour on layer `k >= 1` hides everything below it: two
      stacks that agree from layer `k` up paint the same colour, the same
      glyph and the same draw list, whatever lies underneath. */
  lemma OpaqueLayerOccludes(ds: seq<ValueData>, ds': seq<ValueData>, k: nat)
    requires 1 <= k < |ds| == |ds'| && ds[k..] == ds'[k..] && ds[k].color.Some?
    ensures Composite(ds).color == Composite(ds').color
    ensures Composite(ds).glyph == Composite(ds').glyph
    ensures Composite(ds).draws == Composite(ds').draws
  {
    var p, p' := Composite(ds), Composite(ds');
    TopOpaqueFromSuffix(ds, ds', k, |ds|);
    TopTextFromSuffix(ds, ds', k, |ds|);
    var h, t := TopOpaque(ds), TopText(ds);
    assert h == TopOpaque(ds') && h >= k;
    forall j | k <= j < |ds|
      ensures ds[j] == ds'[j]
    {
      assert ds[j] == ds[k..][j - k];
      assert ds'[j] == ds'[k..][j - k];
    }
    assert p.color == p'.color;
    if t >= k {
      assert t == TopText(ds');
      assert p.glyph == p'.glyph;
    } else {
      assert TopText(ds') < k;
      assert p.glyph == NoGlyph == p'.glyph;
    }
    if p.glyph != NoGlyph {
      assert p.glyphColor == p'.glyphColor;
    }
    SameShapeSameDraws(ds, ds', h, t, TopText(ds'), p, p');
  }

  /** Two stacks that agree from layer `h` up, with draw lists of the
      promised shape for the same opaque layer and the same glyph, draw the
      same list. */
  lemma SameShapeSameDraws(ds: seq<ValueData>, ds': seq<ValueData>, h: nat, t: nat, t': nat, p: Paint, p': Paint)
    requires h < |ds| == |ds'| && t < |ds| && t' < |ds|
    requires forall j :: h <= j < |ds| ==> ds[j] == ds'[j]
    requires ShapedAt(ds, h, t, p) && ShapedAt(ds', h, t', p')
    requires p.glyph == p'.glyph && (p.glyph != NoGlyph ==> t == t' && p.glyphColor == p'.glyphColor)
    ensures p.draws == p'.draws
  {
    ImagesBetweenAgree(ds, ds', h, |ds|);
    if p.glyph != NoGlyph {
      ImagesBetweenAgree(ds, ds', h, t + 1);
      ImagesBetweenAgree(ds, ds', t + 1, |ds|);
    }
  }

  /** A single-layer cell paints its value's colour, or white for null. */
  lemma SingleLayerColor(d: ValueData)
    ensures Composite([d]).color == BaseColor(d)
    ensures Composite([d]).glyph == d.text
  {
  }

  /** Two layers: a glyph on layer 0 under an opaque, glyph-less layer 1 is
      hidden, and the cell takes layer 1's colour. */
  lemma OpaqueLayerHidesGlyphBelow(base: ValueData, top: ValueData)
    requires base.text != NoGlyph && top.color.Some? && top.text == NoGlyph
    ensures Composite([base, top]).color == top.color.value
    ensures Composite([base, top]).glyph == NoGlyph
    ensures TextCount(Composite([base, top]).draws) == 0
  {
    CompositeDrawsImagesAboveOpaque([base, top]);
  }

  /** The stack of appearances behind cell (x, y), layer 0 first; a value
      with no table entry makes the painter's lookup return null and the
      dereference raise NullPointerException. */
  function CellStack(g: Grid, x: int, y: int): (r: Result<seq<ValueData>>)
    requires Valid(g) && !IsOOB(g, x, y)
    ensures r.Ok? <==> forall k :: 0 <= k < |g.layers| ==> g.layers[k][y][x] in g.values
    ensures r.Err? ==> r.error == NullPointer
    ensures r.Ok? ==> |r.value| == |g.layers|
    ensures r.Ok? ==> forall k :: 0 <= k < |g.layers| ==> Get(g, k, x, y).Ok? && r.value[k] == g.values[Get(g, k, x, y).value]
  {
    if forall k :: 0 <= k < |g.layers| ==> g.layers[k][y][x] in g.values then
      Ok(seq(|g.layers|, k requires 0 <= k < |g.layers| => g.values[g.layers[k][y][x]]))
    else Err(NullPointer)
  }

  /** The paint of cell (x, y) of the grid. */
  function RenderCell(g: Grid, x: int, y: int): (r: Result<Paint>)
    requires Valid(g) && !IsOOB(g, x, y)
    ensures r.Ok? <==> CellStack(g, x, y).Ok?
    ensures r.Err? ==> r.error == NullPointer
    ensures r.Ok? ==> r.value.color == (var ds := CellStack(g, x, y).value;
                                        if TopOpaque(ds) > 0 then ds[TopOpaque(ds)].color.value else BaseColor(ds[0]))
    ensures r.Ok? ==> r.value.glyph == (var ds := CellStack(g, x, y).value;
                                        if TopText(ds) >= TopOpaque(ds) then ds[TopText(ds)].text else NoGlyph)
    ensures r.Ok? ==> r.value.glyphColor == (var ds := CellStack(g, x, y).value; ds[TopText(ds)].textColor)
    ensures r.Ok? ==> DrawsShaped(CellStack(g, x, y).value, r.value)
  {
    match CellStack(g, x, y)
    case Ok(ds) => Ok(Composite(ds))
    case Err(e) => Err(e)
  }

  /** Every value stored in any layer has a table entry. */
  ghost predicate Covered(g: Grid)
    requires Valid(g)
  {
    forall k, x, y :: 0 <= k < |g.layers| && !IsOOB(g, x, y) ==> g.layers[k][y][x] in g.values
  }

  /** On a covered grid every cell renders. */
  lemma CoveredRenders(g: Grid, x: int, y: int)
    requires Valid(g) && Covered(g) && !IsOOB(g, x, y)
    ensures RenderCell(g, x, y).Ok?
  {
  }

  /** A new grid is covered, and `set` and `addLayer` keep it so (the value
      setters only add entries, so they keep it too). */
  lemma CoverageKeptBySetAndAddLayer(g: Grid, layer: int, x: int, y: int, v: Int32)
    requires Valid(g) && Covered(g)
    ensures NewGrid(g.width, g.height, g.cellSize, g.gridlineWeight).Ok?
    ensures Covered(NewGrid(g.width, g.height, g.cellSize, g.gridlineWeight).value)
    ensures Set(g, layer, x, y, v).Ok? ==> Covered(Set(g, layer, x, y, v).value)
    ensures 0 in g.values ==> Covered(AddLayer(g))
  {
    var n := NewGrid(g.width, g.height, g.cellSize, g.gridlineWeight).value;
    forall k, x', y' | 0 <= k < |n.layers| && !IsOOB(n, x', y')
      ensures n.layers[k][y'][x'] in n.values
    {
      assert Get(n, 0, x', y') == Ok(0);
    }
    var r := Set(g, layer, x, y, v);
    if r.Ok? && LayerExists(g, layer) {
      forall k, x', y' | 0 <= k < |r.value.layers| && !IsOOB(r.value, x', y')
        ensures r.value.layers[k][y'][x'] in r.value.values
      {
        assert !IsOOB(g, x', y');
        if k != layer || x' != x || y' != y {
          assert Get(r.value, k, x', y') == Get(g, k, x', y');
          assert g.layers[k][y'][x'] in g.values;
        }
      }
    }
    if 0 in g.values {
      var a := AddLayer(g);
      forall k, x', y' | 0 <= k < |a.layers| && !IsOOB(a, x', y')
        ensures a.layers[k][y'][x'] in a.values
      {
        assert !IsOOB(g, x', y');
        if k < |g.layers| {
          assert a.layers[k] == a.layers[..|g.layers|][k] == g.layers[k];
          assert g.layers[k][y'][x'] in g.values;
        } else {
          assert Get(a, k, x', y') == Ok(0);
        }
      }
    }
  }

  /** `fill` writes its value without creating its table entry, so filling
      layer 0 with a value the table lacks leaves cells the painter cannot
      look up. */
  lemma FillCanBreakRendering(g: Grid, v: Int32)
    requires Valid(g) && v !in g.values
    ensures !Covered(Fill(g, 0, v))
    ensures RenderCell(Fill(g, 0, v), 0, 0) == Err(NullPointer)
  {
    var f := Fill(g, 0, v);
    assert Get(f, 0, 0, 0) == Ok(v);
  }

  /** The grid after `ensureValueData(v)`: the layers as they were, and a
      table entry for `v`. */
  function WithEntry(g: Grid, v: Int32): (r: Grid)
    ensures SameShape(g, r) && r.layers == g.layers
    ensures v in r.values && g.values.Keys <= r.values.Keys && r.values.Keys <= g.values.Keys + {v}
    ensures forall u :: u in g.values ==> r.values[u] == g.values[u]
    ensures v !in g.values ==> r.values[v] == DefaultData
  {
    g.(values := EnsureValueData(g.values, v))
  }

  /** An edit that only writes `v` into cells keeps a covered grid covered
      once `v` has its entry. */
  lemma WritingOneValueKeepsCoverage(g: Grid, r: Grid, v: Int32)
    requires Valid(g) && Covered(g) && Valid(r) && SameShape(g, r) && r.values == g.values
    requires forall k, x, y :: 0 <= k < |g.layers| && !IsOOB(g, x, y) ==>
               Get(r, k, x, y) == Get(g, k, x, y) || Get(r, k, x, y) == Ok(v)
    ensures Covered(WithEntry(r, v))
  {
    var e := WithEntry(r, v);
    forall k, x, y | 0 <= k < |e.layers| && !IsOOB(e, x, y)
      ensures e.layers[k][y][x] in e.values
    {
      assert Get(r, k, x, y) == Get(g, k, x, y) || Get(r, k, x, y) == Ok(v);
      assert g.layers[k][y][x] in g.values;
    }
  }

  /** With `ensureValueData(v)` added after them, as `set` has it, the bulk
      edits keep a covered grid covered. */
  lemma BulkEditsWithEntryKeepCoverage(g: Grid, layer: int, row: int, column: int, current: Int32, v: Int32)
    requires Valid(g) && Covered(g)
    ensures Covered(WithEntry(Fill(g, layer, v), v))
    ensures Covered(WithEntry(Replace(g, layer, current, v), v))
    ensures Covered(WithEntry(FillRow(g, layer, row, v), v))
    ensures Covered(WithEntry(FillColumn(g, layer, column, v), v))
  {
    WritingOneValueKeepsCoverage(g, Fill(g, layer, v), v);
    WritingOneValueKeepsCoverage(g, Replace(g, layer, current, v), v);
    WritingOneValueKeepsCoverage(g, FillRow(g, layer, row, v), v);
    WritingOneValueKeepsCoverage(g, FillColumn(g, layer, column, v), v);
  }
}

=== FILE: decimal.dfy ===
/**
 * Decimal text for Java ints as the save format writes and reads them:
 * `StringBuilder.append(int)` on the way out and `Integer.parseInt` on the
 * way in. Only the ASCII digits '0'..'9' are modelled as digits.
 */
module Decimal {
  import opened Basics

  predicate IsDigit(c: char)
  {
    '0' <= c <= '9'
  }

  predicate AllDigits(s: string)
  {
    forall i :: 0 <= i < |s| ==> IsDigit(s[i])
  }

  function DigitChar(d: int): (c: char)
    requires 0 <= d < 10
    ensures IsDigit(c) && c as int - '0' as int == d
  {
    ('0' as int + d) as char
  }

  /** The decimal digits of `n`, most significant first, without leading
      zeros. */
  function NatDigits(n: nat): (s: string)
    ensures |s| >= 1 && AllDigits(s)
    ensures |s| > 1 ==> s[0] != '0'
    decreases n
  {
    if n < 10 then [DigitChar(n)] else NatDigits(n / 10) + [DigitChar(n % 10)]
  }

  /** How `append(int)` renders `v`: a minus sign for a negative value, then
      its digits. The text never contains a space or a colon. */
  function IntToText(v: int): (s: string)
    ensures |s| >= 1
    ensures forall i :: 0 <= i < |s| ==> IsDigit(s[i]) || (i == 0 && s[i] == '-')
    ensures ' ' !in s && ':' !in s
  {
    if v < 0 then ['-'] + NatDigits(-v) else NatDigits(v)
  }

  /** The value of a run of digits, most significant first. */
  function DigitsValue(s: string): nat
    requires AllDigits(s)
  {
    if |s| == 0 then 0 else DigitsValue(s[..|s| - 1]) * 10 + (s[|s| - 1] as int - '0' as int)
  }

  /** `Integer.parseInt(s)`: an optional sign, at least one digit, only
      digits after the sign, and a value inside the Java int range;
      anything else raises NumberFormatException (`None`). Leading zeros
      and a leading '+' are accepted. */
  function ParseInt(s: string): (r: Option<Int32>)
    ensures r.Some? ==> |s| >= 1 && forall i :: 0 < i < |s| ==> IsDigit(s[i])
    ensures r.Some? ==> IsDigit(s[0]) || (|s| >= 2 && (s[0] == '-' || s[0] == '+'))
    ensures r.Some? && s[0] == '-' ==> r.value <= 0
    ensures r.Some? && s[0] != '-' ==> r.value >= 0
  {
    if |s| == 0 then None
    else
      var signed := s[0] == '-' || s[0] == '+';
      var digits := if signed then s[1..] else s;
      if |digits| == 0 || !AllDigits(digits) then None
      else
        var magnitude: int := DigitsValue(digits);
        var v: int := if s[0] == '-' then -magnitude else magnitude;
        if -0x8000_0000 <= v < 0x8000_0000 then Some(v) else None
  }

  lemma {:induction false} NatDigitsValue(n: nat)
    ensures DigitsValue(NatDigits(n)) == n
    decreases n
  {
    var s := NatDigits(n);
    if n >= 10 {
      NatDigitsValue(n / 10);
      assert s[..|s| - 1] == NatDigits(n / 10);
    }
  }

  /** Parsing the rendering of a Java int gives it back. */
  lemma ParseIntOfText(v: Int32)
    ensures ParseInt(IntToText(v)) == Some(v)
  {
    var s := IntToText(v);
    var n: int := v;
    if n < 0 {
      assert s[1..] == NatDigits(-n);
      NatDigitsValue(-n);
    } else {
      NatDigitsValue(v);
    }
  }

  /** `parseInt` on a few texts: the sign and leading zeros are accepted,
      an empty text, a bare sign, a space and a value far past the int range
      are rejected. */
  lemma ParseIntExamples()
    ensures ParseInt("+007") == Some(7)
    ensures ParseInt("-12") == Some(-12)
    ensures ParseInt("") == None && ParseInt("-") == None && ParseInt("+") == None
    ensures ParseInt(" 1") == None && ParseInt("1 ") == None
    ensures ParseInt("3000000000") == None
  {
    assert DigitsValue("007") == 7 by {
      assert "007"[..2] == "00" && "00"[..1] == "0" && "0"[..0] == "";
    }
    assert DigitsValue("12") == 12 by {
      assert "12"[..1] == "1" && "1"[..0] == "";
    }
    var big := "3000000000";
    assert DigitsValue(big) >= 3000000000 by {
      DigitsValueAtLeast(big);
      assert Pow10(9) == 1000000000;
    }
  }

  /** A run of digits not starting with '0' is worth at least 10^(n-1). */
  lemma {:induction false} DigitsValueAtLeast(s: string)
    requires |s| >= 1 && AllDigits(s) && s[0] != '0'
    ensures DigitsValue(s) >= Pow10(|s| - 1) * (s[0] as int - '0' as int)
    decreases |s|
  {
    var d := s[0] as int - '0' as int;
    if |s| > 1 {
      var init := s[..|s| - 1];
      assert init[0] == s[0];
      DigitsValueAtLeast(init);
      var p := Pow10(|init| - 1);
      assert Pow10(|s| - 1) == 10 * p;
      assert DigitsValue(s) >= DigitsValue(init) * 10;
      ScaleByTen(DigitsValue(init), p, d);
    }
  }

  lemma ScaleByTen(v: int, p: int, d: int)
    requires v >= p * d
    ensures v * 10 >= (10 * p) * d
  {
    assert (10 * p) * d == 10 * (p * d);
  }

  function Pow10(n: nat): nat
  {
    if n == 0 then 1 else 10 * Pow10(n - 1)
  }
}

=== FILE: grid.dfy ===
/**
 * The layer store of `SimpleGrid`: a stack of H x W integer layers (indexed
 * row first, `layers[k][y][x]`) together with the value table.
 *
 * The error rules are deliberately asymmetric and are kept as the class has
 * them: every write path silently ignores a layer index that does not
 * exist, `Get` raises IllegalArgument for one (before looking at the
 * coordinates), `Set` and `Get` raise GridIndexOutOfBounds for coordinates
 * off the grid, and `FillRow`/`FillColumn` silently ignore a row or column
 * off the grid.
 */
module SimpleGrid {
  import opened Basics
  import opened ValueTable

  /** One layer: `height` rows of `width` values. */
  type Layer = seq<seq<Int32>>

  predicate Shaped(l: Layer, width: int, height: int)
  {
    |l| == height && forall y :: 0 <= y < |l| ==> |l[y]| == width
  }

  /** A `width` x `height` layer holding `v` everywhere. */
  function ConstLayer(width: nat, height: nat, v: Int32): (l: Layer)
    ensures Shaped(l, width, height)
    ensures forall y, x :: 0 <= y < height && 0 <= x < width ==> l[y][x] == v
  {
    seq(height, _ => seq(width, _ => v))
  }

  /** The state of one `SimpleGrid`: its panel geometry, its layers and its
      value table. */
  datatype Grid = Grid(
    width: int,
    height: int,
    cellSize: int,
    gridlineWeight: int,
    layers: seq<Layer>,
    values: Table)

  /** What the constructor establishes and every operation keeps: positive
      dimensions, layer 0 present, every layer `height` x `width`. The
      gridline weight is not checked by the constructor and is not
      constrained here. */
  predicate Valid(g: Grid)
  {
    && g.width > 0 && g.height > 0 && g.cellSize > 0
    && |g.layers| >= 1
    && forall k :: 0 <= k < |g.layers| ==> Shaped(g.layers[k], g.width, g.height)
  }

  /** `g'` has the geometry and the layer count of `g`. */
  predicate SameShape(g: Grid, g': Grid)
  {
    && g'.width == g.width && g'.height == g.height
    && g'.cellSize == g.cellSize && g'.gridlineWeight == g.gridlineWeight
    && |g'.layers| == |g.layers|
  }

  /** The layer-index test shared by every operation taking a layer. */
  predicate LayerExists(g: Grid, layer: int)
  {
    0 <= layer < |g.layers|
  }

  /** `new SimpleGrid(width, height, cellSize, gridlineWeight, name)`: one
      layer of zeros and a table binding only 0 (to a null colour). */
  function NewGrid(width: int, height: int, cellSize: int, gridlineWeight: int): (r: Result<Grid>)
    ensures r.Ok? <==> width > 0 && height > 0 && cellSize > 0
    ensures r.Err? ==> r.error == IllegalArgument
    ensures r.Ok? ==> Valid(r.value) && |r.value.layers| == 1 && r.value.values == InitialTable()
    ensures r.Ok? ==> r.value.width == width && r.value.height == height
    ensures r.Ok? ==> r.value.cellSize == cellSize && r.value.gridlineWeight == gridlineWeight
    ensures r.Ok? ==> forall x, y :: !IsOOB(r.value, x, y) ==> Get(r.value, 0, x, y) == Ok(0)
  {
    if width <= 0 || height <= 0 || cellSize <= 0 then Err(IllegalArgument)
    else Ok(Grid(width, height, cellSize, gridlineWeight, [ConstLayer(width, height, 0)], InitialTable()))
  }

  /** `isOOB(x, y)`: on a well-formed grid, a coordinate pair is in bounds
      exactly when it indexes a stored cell of every layer. */
  predicate IsOOB(g: Grid, x: int, y: int)
    ensures Valid(g) ==>
              (!IsOOB(g, x, y) <==> forall k :: 0 <= k < |g.layers| ==> 0 <= y < |g.layers[k]| && 0 <= x < |g.layers[k][y]|)
  {
    assert Valid(g) ==> Shaped(g.layers[0], g.width, g.height);
    x < 0 || y < 0 || x >= g.width || y >= g.height
  }

  /** `isOOB(pos)`: a null position counts as out of bounds. A position it
      accepts is readable on every layer. */
  function IsOOBPoint(g: Grid, pos: Option<Point>): (r: bool)
    requires Valid(g)
    ensures !r <==> pos.Some? && forall k :: 0 <= k < |g.layers| ==> GetPoint(g, k, pos).Ok?
  {
    if pos.None? then true
    else
      assert GetPoint(g, 0, pos).Ok? <==> !IsOOB(g, pos.value.x, pos.value.y);
      IsOOB(g, pos.value.x, pos.value.y)
  }

  /** `addLayer()`: a new all-zero layer on top; nothing else changes. */
  function AddLayer(g: Grid): (r: Grid)
    requires Valid(g)
    ensures Valid(r)
    ensures |r.layers| == |g.layers| + 1 && r.layers[..|g.layers|] == g.layers
    ensures r.width == g.width && r.height == g.height
    ensures r.cellSize == g.cellSize && r.gridlineWeight == g.gridlineWeight
    ensures r.values == g.values
    ensures forall x, y :: !IsOOB(g, x, y) ==> Get(r, |g.layers|, x, y) == Ok(0)
  {
    g.(layers := g.layers + [ConstLayer(g.width, g.height, 0)])
  }

  /** `get(layer, x, y)`: the layer is checked first, then the coordinates. */
  function Get(g: Grid, layer: int, x: int, y: int): (r: Result<Int32>)
    requires Valid(g)
    ensures r == Err(IllegalArgument) <==> !LayerExists(g, layer)
    ensures r == Err(GridIndexOutOfBounds) <==> LayerExists(g, layer) && IsOOB(g, x, y)
    ensures r.Ok? <==> LayerExists(g, layer) && !IsOOB(g, x, y)
  {
    if !LayerExists(g, layer) then Err(IllegalArgument)
    else if IsOOB(g, x, y) then Err(GridIndexOutOfBounds)
    else Ok(g.layers[layer][y][x])
  }

  /** `get(layer, pos)`: a null position raises NullPointerException before
      the layer is looked at. */
  function GetPoint(g: Grid, layer: int, pos: Option<Point>): (r: Result<Int32>)
    requires Valid(g)
    ensures pos.None? <==> r == Err(NullPointer)
    ensures pos.Some? ==> (r == Err(IllegalArgument) <==> !LayerExists(g, layer))
    ensures pos.Some? ==> (r.Ok? <==> LayerExists(g, layer) && !IsOOB(g, pos.value.x, pos.value.y))
    ensures pos.Some? && LayerExists(g, layer) && IsOOB(g, pos.value.x, pos.value.y) ==> r == Err(GridIndexOutOfBounds)
    ensures r.Ok? ==> r.value == g.layers[layer][pos.value.y][pos.value.x]
  {
    if pos.None? then Err(NullPointer) else Get(g, layer, pos.value.x, pos.value.y)
  }

  /** `get(x, y)`: reads layer 0, which always exists, so the only error is
      GridIndexOutOfBounds. */
  function GetBase(g: Grid, x: int, y: int): (r: Result<Int32>)
    requires Valid(g)
    ensures r.Err? <==> IsOOB(g, x, y)
    ensures r.Err? ==> r.error == GridIndexOutOfBounds
  {
    Get(g, 0, x, y)
  }

  /** `get(pos)`: reads layer 0; null raises NullPointerException. */
  function GetBasePoint(g: Grid, pos: Option<Point>): (r: Result<Int32>)
    requires Valid(g)
    ensures pos.None? <==> r == Err(NullPointer)
    ensures pos.Some? ==> (r.Err? <==> IsOOB(g, pos.value.x, pos.value.y))
    ensures pos.Some? && r.Err? ==> r.error == GridIndexOutOfBounds
  {
    GetPoint(g, 0, pos)
  }

  /** `layer` with the cell at column `x`, row `y` replaced by `v`. */
  function SetCell(l: Layer, x: int, y: int, v: Int32): Layer
    requires 0 <= y < |l| && 0 <= x < |l[y]|
  {
    var row: seq<Int32> := l[y][x := v];
    l[y := row]
  }

  /** `set(layer, x, y, value)`: a missing layer is a silent no-op,
      coordinates off the grid raise GridIndexOutOfBounds, and a successful
      write also makes sure `value` has a table entry. */
  function Set(g: Grid, layer: int, x: int, y: int, v: Int32): (r: Result<Grid>)
    requires Valid(g)
    ensures !LayerExists(g, layer) ==> r == Ok(g)
    ensures LayerExists(g, layer) ==> (r.Err? <==> IsOOB(g, x, y))
    ensures r.Err? ==> r.error == GridIndexOutOfBounds
    ensures r.Ok? ==> Valid(r.value) && SameShape(g, r.value) && g.values.Keys <= r.value.values.Keys
    ensures LayerExists(g, layer) && !IsOOB(g, x, y) ==> v in r.value.values
    ensures r.Ok? ==> r.value.values.Keys <= g.values.Keys + {v}
    ensures r.Ok? ==> forall u :: u in g.values ==> r.value.values[u] == g.values[u]
    ensures LayerExists(g, layer) && !IsOOB(g, x, y) && v !in g.values ==> r.value.values[v] == DefaultData
    ensures r.Ok? ==> forall k, x', y' :: k != layer || x' != x || y' != y ==> Get(r.value, k, x', y') == Get(g, k, x', y')
  {
    if !LayerExists(g, layer) then Ok(g)
    else if IsOOB(g, x, y) then Err(GridIndexOutOfBounds)
    else
      Ok(g.(layers := g.layers[layer := SetCell(g.layers[layer], x, y, v)],
            values := EnsureValueData(g.values, v)))
  }

  /** `set(layer, pos, value)`: a null position is a silent no-op. */
  function SetPoint(g: Grid, layer: int, pos: Option<Point>, v: Int32): (r: Result<Grid>)
    requires Valid(g)
    ensures pos.None? || !LayerExists(g, layer) ==> r == Ok(g)
    ensures pos.Some? && LayerExists(g, layer) ==> (r.Err? <==> IsOOB(g, pos.value.x, pos.value.y))
    ensures r.Ok? ==> Valid(r.value) && SameShape(g, r.value)
    ensures pos.Some? && LayerExists(g, layer) && r.Ok? ==> GetPoint(r.value, layer, pos) == Ok(v)
    ensures r.Err? ==> r.error == GridIndexOutOfBounds
    ensures r.Ok? && pos.Some? ==>
              forall k, x', y' :: k != layer || x' != pos.value.x || y' != pos.value.y ==> Get(r.value, k, x', y') == Get(g, k, x', y')
    ensures pos.Some? && LayerExists(g, layer) && r.Ok? ==> v in r.value.values
    ensures r.Ok? ==> r.value.values.Keys <= g.values.Keys + {v}
    ensures pos.Some? && LayerExists(g, layer) && r.Ok? && v !in g.values ==> r.value.values[v] == DefaultData
    ensures r.Ok? ==> g.values.Keys <= r.value.values.Keys
    ensures r.Ok? ==> forall u :: u in g.values ==> r.value.values[u] == g.values[u]
  {
    if pos.None? then Ok(g) else Set(g, layer, pos.value.x, pos.value.y, v)
  }

  /** `set(x, y, value)`: writes layer 0, which always exists, so it is never
      a silent no-op. */
  function SetBase(g: Grid, x: int, y: int, v: Int32): (r: Result<Grid>)
    requires Valid(g)
    ensures r.Err? <==> IsOOB(g, x, y)
    ensures r.Ok? ==> Valid(r.value) && SameShape(g, r.value) && GetBase(r.value, x, y) == Ok(v)
    ensures r.Err? ==> r.error == GridIndexOutOfBounds
    ensures r.Ok? ==> forall k, x', y' :: k != 0 || x' != x || y' != y ==> Get(r.value, k, x', y') == Get(g, k, x', y')
    ensures r.Ok? ==> v in r.value.values && g.values.Keys <= r.value.values.Keys
    ensures r.Ok? ==> r.value.values.Keys <= g.values.Keys + {v}
    ensures r.Ok? && v !in g.values ==> r.value.values[v] == DefaultData
    ensures r.Ok? ==> forall u :: u in g.values ==> r.value.values[u] == g.values[u]
  {
    Set(g, 0, x, y, v)
  }

  /** `set(pos, value)`: writes layer 0; a null position is a no-op. */
  function SetBasePoint(g: Grid, pos: Option<Point>, v: Int32): (r: Result<Grid>)
    requires Valid(g)
    ensures pos.None? ==> r == Ok(g)
    ensures pos.Some? ==> (r.Err? <==> IsOOB(g, pos.value.x, pos.value.y))
    ensures r.Ok? ==> Valid(r.value) && SameShape(g, r.value)
    ensures pos.Some? && r.Ok? ==> GetBasePoint(r.value, pos) == Ok(v)
    ensures r.Err? ==> r.error == GridIndexOutOfBounds
    ensures r.Ok? && pos.Some? ==>
              forall k, x', y' :: k != 0 || x' != pos.value.x || y' != pos.value.y ==> Get(r.value, k, x', y') == Get(g, k, x', y')
    ensures pos.Some? && r.Ok? ==> v in r.value.values
    ensures r.Ok? ==> r.value.values.Keys <= g.values.Keys + {v}
    ensures pos.Some? && r.Ok? && v !in g.values ==> r.value.values[v] == DefaultData
    ensures r.Ok? ==> g.values.Keys <= r.value.values.Keys
    ensures r.Ok? ==> forall u :: u in g.values ==> r.value.values[u] == g.values[u]
  {
    SetPoint(g, 0, pos, v)
  }

  /** `fill(layer, value)`: every cell of the layer becomes `value`. The
      value table is not consulted, so `value` may be left without an entry. */
  function Fill(g: Grid, layer: int, v: Int32): (r: Grid)
    requires Valid(g)
    ensures Valid(r) && SameShape(g, r) && r.values == g.values
    ensures !LayerExists(g, layer) ==> r == g
    ensures LayerExists(g, layer) ==> forall x, y :: !IsOOB(g, x, y) ==> Get(r, layer, x, y) == Ok(v)
    ensures forall k, x, y :: k != layer ==> Get(r, k, x, y) == Get(g, k, x, y)
  {
    if !LayerExists(g, layer) then g
    else g.(layers := g.layers[layer := ConstLayer(g.width, g.height, v)])
  }

  /** `fill(value)`: fills layer 0. */
  function FillBase(g: Grid, v: Int32): (r: Grid)
    requires Valid(g)
    ensures Valid(r) && SameShape(g, r) && r.values == g.values
    ensures forall x, y :: !IsOOB(g, x, y) ==> GetBase(r, x, y) == Ok(v)
    ensures forall k :: 1 <= k < |g.layers| ==> r.layers[k] == g.layers[k]
  {
    Fill(g, 0, v)
  }

  /** The layer with every `current` turned into `next`. */
  function ReplaceInLayer(l: Layer, current: Int32, next: Int32): Layer
  {
    seq(|l|, y requires 0 <= y < |l| =>
      seq(|l[y]|, x requires 0 <= x < |l[y]| => if l[y][x] == current then next else l[y][x]))
  }

  /** `replace(layer, currentValue, newValue)`: exactly the cells holding
      `current` change, to `next`; the value table is not consulted. */
  function Replace(g: Grid, layer: int, current: Int32, next: Int32): (r: Grid)
    requires Valid(g)
    ensures Valid(r) && SameShape(g, r) && r.values == g.values
    ensures !LayerExists(g, layer) ==> r == g
    ensures forall x, y :: Get(g, layer, x, y) != Ok(current) ==> Get(r, layer, x, y) == Get(g, layer, x, y)
    ensures forall x, y :: Get(g, layer, x, y) == Ok(current) ==> Get(r, layer, x, y) == Ok(next)
    ensures forall k, x, y :: k != layer ==> Get(r, k, x, y) == Get(g, k, x, y)
  {
    if !LayerExists(g, layer) then g
    else g.(layers := g.layers[layer := ReplaceInLayer(g.layers[layer], current, next)])
  }

  /** `replace(currentValue, newValue)`: replaces on layer 0. */
  function ReplaceBase(g: Grid, current: Int32, next: Int32): (r: Grid)
    requires Valid(g)
    ensures Valid(r) && SameShape(g, r) && r.values == g.values
    ensures forall x, y :: GetBase(g, x, y) == Ok(current) ==> GetBase(r, x, y) == Ok(next)
    ensures forall x, y :: GetBase(g, x, y) != Ok(current) ==> GetBase(r, x, y) == GetBase(g, x, y)
    ensures forall k :: 1 <= k < |g.layers| ==> r.layers[k] == g.layers[k]
  {
    Replace(g, 0, current, next)
  }

  /** `fillRow(layer, row, value)`: a missing layer or a row off the grid is
      a silent no-op; otherwise exactly row `row` of the layer changes. */
  function FillRow(g: Grid, layer: int, row: int, v: Int32): (r: Grid)
    requires Valid(g)
    ensures Valid(r) && SameShape(g, r) && r.values == g.values
    ensures !LayerExists(g, layer) || row < 0 || row >= g.height ==> r == g
    ensures LayerExists(g, layer) && 0 <= row < g.height ==>
              forall x :: 0 <= x < g.width ==> Get(r, layer, x, row) == Ok(v)
    ensures forall k, x, y :: k != layer || y != row ==> Get(r, k, x, y) == Get(g, k, x, y)
  {
    if row < 0 || row >= g.height || !LayerExists(g, layer) then g
    else
      var l := g.layers[layer];
      g.(layers := g.layers[layer := l[row := seq(g.width, _ => v)]])
  }

  /** `fillRow(row, value)`: fills a row of layer 0. */
  function FillRowBase(g: Grid, row: int, v: Int32): (r: Grid)
    requires Valid(g)
    ensures Valid(r) && SameShape(g, r) && r.values == g.values
    ensures row < 0 || row >= g.height ==> r == g
    ensures 0 <= row < g.height ==> forall x :: 0 <= x < g.width ==> GetBase(r, x, row) == Ok(v)
    ensures forall x, y :: y != row ==> GetBase(r, x, y) == GetBase(g, x, y)
    ensures forall k :: 1 <= k < |g.layers| ==> r.layers[k] == g.layers[k]
  {
    FillRow(g, 0, row, v)
  }

  /** `fillColumn(layer, column, value)`: a missing layer or a column off the
      grid is a silent no-op; otherwise exactly column `column` changes. */
  function FillColumn(g: Grid, layer: int, column: int, v: Int32): (r: Grid)
    requires Valid(g)
    ensures Valid(r) && SameShape(g, r) && r.values == g.values
    ensures !LayerExists(g, layer) || column < 0 || column >= g.width ==> r == g
    ensures LayerExists(g, layer) && 0 <= column < g.width ==>
              forall y :: 0 <= y < g.height ==> Get(r, layer, column, y) == Ok(v)
    ensures forall k, x, y :: k != layer || x != column ==> Get(r, k, x, y) == Get(g, k, x, y)
  {
    if column < 0 || column >= g.width || !LayerExists(g, layer) then g
    else
      var l := g.layers[layer];
      var l': Layer := seq(|l|, y requires 0 <= y < |l| => l[y][column := v]);
      g.(layers := g.layers[layer := l'])
  }

  /** `fillColumn(column, value)`: fills a column of layer 0. */
  function FillColumnBase(g: Grid, column: int, v: Int32): (r: Grid)
    requires Valid(g)
    ensures Valid(r) && SameShape(g, r) && r.values == g.values
    ensures column < 0 || column >= g.width ==> r == g
    ensures 0 <= column < g.width ==> forall y :: 0 <= y < g.height ==> GetBase(r, column, y) == Ok(v)
    ensures forall x, y :: x != column ==> GetBase(r, x, y) == GetBase(g, x, y)
    ensures forall k :: 1 <= k < |g.layers| ==> r.layers[k] == g.layers[k]
  {
    FillColumn(g, 0, column, v)
  }

  /** `isOOB` agrees with the storage: a coordinate pair is in bounds exactly
      when it indexes a cell of every layer. */
  lemma IsOOBMatchesStorage(g: Grid, k: int, x: int, y: int)
    requires Valid(g) && LayerExists(g, k)
    ensures !IsOOB(g, x, y) <==> 0 <= y < |g.layers[k]| && 0 <= x < |g.layers[k][y]|
  {
  }

  /** Set/get round trip: after an in-bounds `set` on an existing layer,
      `get` returns the value written, every other cell of every layer reads
      as before, and the table has an entry for the value. */
  lemma SetThenGet(g: Grid, layer: int, x: int, y: int, v: Int32)
    requires Valid(g) && LayerExists(g, layer) && !IsOOB(g, x, y)
    ensures Set(g, layer, x, y, v).Ok?
    ensures Get(Set(g, layer, x, y, v).value, layer, x, y) == Ok(v)
    ensures forall k, x', y' :: (k, x', y') != (layer, x, y) ==>
              Get(Set(g, layer, x, y, v).value, k, x', y') == Get(g, k, x', y')
    ensures v in Set(g, layer, x, y, v).value.values
  {
  }

  /** Writes to a layer that does not exist change nothing and raise
      nothing, while a read of such a layer raises IllegalArgument whatever
      the coordinates. */
  lemma MissingLayerAsymmetry(g: Grid, layer: int, x: int, y: int, v: Int32, row: int, column: int, w: Int32)
    requires Valid(g) && !LayerExists(g, layer)
    ensures Set(g, layer, x, y, v) == Ok(g)
    ensures Fill(g, layer, v) == g && Replace(g, layer, v, w) == g
    ensures FillRow(g, layer, row, v) == g && FillColumn(g, layer, column, v) == g
    ensures Get(g, layer, x, y) == Err(IllegalArgument)
  {
  }

  /** Filling a layer and then reading any of its cells gives the fill
      value; reading any other layer gives what it held before. */
  lemma FillThenGet(g: Grid, layer: int, v: Int32, k: int, x: int, y: int)
    requires Valid(g) && LayerExists(g, layer) && !IsOOB(g, x, y)
    ensures Get(Fill(g, layer, v), layer, x, y) == Ok(v)
    ensures k != layer ==> Get(Fill(g, layer, v), k, x, y) == Get(g, k, x, y)
  {
  }

  /** After `replace(layer, a, b)` with `a != b`, no cell of the layer holds
      `a`; and a second identical `replace` changes nothing. */
  lemma ReplaceRemovesAndIsIdempotent(g: Grid, layer: int, a: Int32, b: Int32)
    requires Valid(g)
    ensures a != b ==> forall x, y :: Get(Replace(g, layer, a, b), layer, x, y) != Ok(a)
    ensures Replace(Replace(g, layer, a, b), layer, a, b) == Replace(g, layer, a, b)
  {
    var r := Replace(g, layer, a, b);
    var r2 := Replace(r, layer, a, b);
    if LayerExists(g, layer) {
      var l := r.layers[layer];
      var l2 := r2.layers[layer];
      assert |l2| == |l|;
      forall y | 0 <= y < |l|
        ensures l2[y] == l[y]
      {
        assert |l2[y]| == |l[y]|;
        forall x | 0 <= x < |l[y]|
          ensures l2[y][x] == l[y][x]
        {
          assert Get(r, layer, x, y) == Ok(l[y][x]);
          assert Get(r2, layer, x, y) == Ok(l2[y][x]);
        }
      }
      assert l2 == l;
      assert r2.layers == r.layers;
    }
  }
}

=== FILE: persistence.dfy ===
/**
 * The text form of a grid's layers: `saveGrid` writes every layer as its
 * cell values in row-major order, separated by single spaces, and the
 * layers separated by ':'; `loadGrid` reads such a text back into the
 * grid, adding layers as needed.
 *
 * `loadGrid` writes into the live layers as it reads, so a failure part
 * way through leaves the layers read so far, and the cells of the failing
 * layer before the failing token, already overwritten. The outcome of a
 * load is therefore the grid as it stands together with the exception, if
 * any, that ended the load.
 */
module Persistence {
  import opened Basics
  import opened SimpleGrid
  import opened Decimal
  import opened Text

  const LayerSeparator: char := ':'
  const CellSeparator: char := ' '

  /** `a * b` grows with `a` when `b` is positive. */
  lemma MulMonotone(a: int, a': int, b: int)
    requires a <= a' && b > 0
    ensures a * b <= a' * b
  {
    assert a' * b - a * b == (a' - a) * b;
  }

  /** Row-major cell index `y * width + x` stays below `width * height`. */
  lemma CellIndexBound(width: int, height: int, x: int, y: int)
    requires width > 0 && 0 <= x < width && 0 <= y < height
    ensures 0 <= y * width + x < height * width
  {
    MulMonotone(0, y, width);
    MulMonotone(y + 1, height, width);
  }

  /** A quotient of a row-major index is a row of the grid. */
  lemma QuotientBelow(j: int, width: int, height: int)
    requires width > 0 && 0 <= j < height * width
    ensures 0 <= j / width < height
  {
    var q := j / width;
    assert q * width <= j;
    assert (height - q) * width == height * width - q * width;
    MultipleAwayFromZero(height - q, width);
    MultipleAwayFromZero(q, width);
  }

  /** A layer's rows laid end to end. */
  function Flatten(l: Layer, width: int): (cells: seq<Int32>)
    requires forall y :: 0 <= y < |l| ==> |l[y]| == width
    ensures |cells| == |l| * width
    decreases |l|
  {
    if |l| == 0 then []
    else
      assert |l| * width == width + (|l| - 1) * width;
      l[0] + Flatten(l[1..], width)
  }

  /** Cell (x, y) of a layer lands at `y * width + x` of its flattening. */
  lemma {:induction false} FlattenAt(l: Layer, width: int, x: int, y: int)
    requires width > 0 && forall y :: 0 <= y < |l| ==> |l[y]| == width
    requires 0 <= y < |l| && 0 <= x < width
    ensures 0 <= y * width + x < |Flatten(l, width)|
    ensures Flatten(l, width)[y * width + x] == l[y][x]
    decreases y
  {
    CellIndexBound(width, |l|, x, y);
    var f := Flatten(l, width);
    var rest := Flatten(l[1..], width);
    assert f == l[0] + rest;
    if y > 0 {
      var j := (y - 1) * width + x;
      assert (y - 1) * width == y * width - width;
      FlattenAt(l[1..], width, x, y - 1);
      assert f[width + j] == rest[j];
      assert l[1..][y - 1] == l[y];
    }
  }

  /** The decimal texts of a run of values, one token per value. */
  function Render(cells: seq<Int32>): (tokens: seq<string>)
    ensures |tokens| == |cells|
    ensures forall j :: 0 <= j < |cells| ==> tokens[j] == IntToText(cells[j])
  {
    seq(|cells|, j requires 0 <= j < |cells| => IntToText(cells[j]))
  }

  /** The tokens `saveGrid` writes for a layer, one per cell in row-major
      order. */
  function CellTokens(l: Layer, width: int): seq<string>
    requires width > 0 && forall y :: 0 <= y < |l| ==> |l[y]| == width
  {
    Render(Flatten(l, width))
  }

  /** The text of one layer: its values, row-major, one space between
      neighbours. */
  function SaveLayer(l: Layer, width: int): (r: string)
    requires width > 0 && |l| > 0 && forall y :: 0 <= y < |l| ==> |l[y]| == width
    ensures Tokens(r) == CellTokens(l, width)
    ensures LayerSeparator !in r && r != ""
  {
    var tokens := CellTokens(l, width);
    assert |tokens| >= 1 by {
      MulMonotone(1, |l|, width);
    }
    assert tokens[|tokens| - 1] != "";
    SplitOfJoin(tokens, CellSeparator);
    JoinAvoids(tokens, CellSeparator, LayerSeparator);
    Join(tokens, CellSeparator)
  }

  /** The texts of the layers, bottom layer first; none is empty or holds
      the layer separator. */
  function LayerTexts(g: Grid): (texts: seq<string>)
    requires Valid(g)
    ensures |texts| == |g.layers|
    ensures forall k :: 0 <= k < |texts| ==> LayerSeparator !in texts[k] && texts[k] != ""
  {
    seq(|g.layers|, k requires 0 <= k < |g.layers| => SaveLayer(g.layers[k], g.width))
  }

  /** `saveGrid()`: the layers' texts, bottom layer first, one ':' between
      neighbours and none after the last, so that splitting at ':' gives
      the texts back. */
  function SaveGrid(g: Grid): (r: string)
    requires Valid(g)
    ensures Split(r, LayerSeparator) == LayerTexts(g)
  {
    var texts := LayerTexts(g);
    SplitOfJoin(texts, LayerSeparator);
    Join(texts, LayerSeparator)
  }

  /** What reading the first `count` tokens of a layer produced: the values
      parsed before the first failure, and that failure if there was one. */
  datatype CellRead = CellRead(values: seq<Int32>, error: Option<GridError>)

  /** Taking the first `count` parse results in order, stopping at the
      first index past the end of `parsed` (ArrayIndexOutOfBounds) or the
      first failed parse (NumberFormat). */
  function TakeParsed(parsed: seq<Option<Int32>>, count: nat): (r: CellRead)
    ensures |r.values| <= count && |r.values| <= |parsed|
    ensures forall j :: 0 <= j < |r.values| ==> parsed[j] == Some(r.values[j])
    ensures r.error.None? <==> |r.values| == count
    ensures r.error.None? <==> count <= |parsed| && forall j :: 0 <= j < count ==> parsed[j].Some?
    ensures r.error.Some? ==> r.error == Some(ArrayIndexOutOfBounds) || r.error == Some(NumberFormat)
    ensures r.error == Some(ArrayIndexOutOfBounds) <==> r.error.Some? && |r.values| >= |parsed|
    ensures r.error == Some(NumberFormat) <==>
              r.error.Some? && |r.values| < |parsed| && parsed[|r.values|].None?
    decreases count
  {
    if count == 0 then CellRead([], None)
    else if |parsed| == 0 then CellRead([], Some(ArrayIndexOutOfBounds))
    else if parsed[0].None? then CellRead([], Some(NumberFormat))
    else
      var rest := TakeParsed(parsed[1..], count - 1);
      var r := CellRead([parsed[0].value] + rest.values, rest.error);
      assert forall j :: 1 <= j < |r.values| ==> r.values[j] == rest.values[j - 1];
      assert forall j :: 1 <= j < |parsed| ==> parsed[j] == parsed[1..][j - 1];
      r
  }

  /** Reading the cells of a layer: `parseInt` on `tokens[0..count)` in
      order, until an index runs past the tokens (ArrayIndexOutOfBounds) or
      a token is rejected (NumberFormat). */
  function ReadCells(tokens: seq<string>, count: nat): (r: CellRead)
    ensures |r.values| <= count && |r.values| <= |tokens|
    ensures forall j :: 0 <= j < |r.values| ==> ParseInt(tokens[j]) == Some(r.values[j])
    ensures r.error.None? <==> |r.values| == count
    ensures r.error.None? <==> count <= |tokens| && forall j :: 0 <= j < count ==> ParseInt(tokens[j]).Some?
    ensures r.error.Some? ==> r.error == Some(ArrayIndexOutOfBounds) || r.error == Some(NumberFormat)
    ensures r.error == Some(ArrayIndexOutOfBounds) <==> r.error.Some? && |r.values| >= |tokens|
    ensures r.error == Some(NumberFormat) <==>
              r.error.Some? && |r.values| < |tokens| && ParseInt(tokens[|r.values|]).None?
  {
    var parsed := seq(|tokens|, j requires 0 <= j < |tokens| => ParseInt(tokens[j]));
    var r := TakeParsed(parsed, count);
    assert forall j :: 0 <= j < |tokens| ==> parsed[j] == ParseInt(tokens[j]);
    r
  }

  /** `layer` with its first `|values|` cells, row-major, replaced by
      `values`. */
  function Overwrite(l: Layer, width: int, height: int, values: seq<Int32>): (r: Layer)
    requires width > 0 && Shaped(l, width, height)
    ensures Shaped(r, width, height)
    ensures forall y, x :: 0 <= y < height && 0 <= x < width ==>
              r[y][x] == if y * width + x < |values| then values[y * width + x] else l[y][x]
  {
    seq(height, y requires 0 <= y < height =>
      seq(width, x requires 0 <= x < width =>
        if y * width + x < |values| then values[y * width + x] else l[y][x]))
  }

  /** Overwriting every cell of a layer with its own flattening changes
      nothing. */
  lemma OverwriteWithOwnCells(l: Layer, width: int, height: int)
    requires width > 0 && Shaped(l, width, height)
    ensures Overwrite(l, width, height, Flatten(l, width)) == l
  {
    var r := Overwrite(l, width, height, Flatten(l, width));
    forall y | 0 <= y < height
      ensures r[y] == l[y]
    {
      forall x | 0 <= x < width
        ensures r[y][x] == l[y][x]
      {
        FlattenAt(l, width, x, y);
      }
    }
  }

  /** Writing values over a layer, read row-major: the first `|values|`
      cells are the values, in order, and every later cell is as it was. */
  lemma FlattenOverwrite(l: Layer, width: int, height: int, values: seq<Int32>)
    requires width > 0 && Shaped(l, width, height) && |values| <= width * height
    ensures Flatten(Overwrite(l, width, height, values), width) == values + Flatten(l, width)[|values|..]
  {
    var f, old_f := Flatten(Overwrite(l, width, height, values), width), Flatten(l, width);
    var want := values + old_f[|values|..];
    assert |f| == |want|;
    forall j | 0 <= j < |f|
      ensures f[j] == want[j]
    {
      FlattenOverwriteAt(l, width, height, values, j);
    }
  }

  /** One row-major index of `FlattenOverwrite`. */
  lemma FlattenOverwriteAt(l: Layer, width: int, height: int, values: seq<Int32>, j: int)
    requires width > 0 && Shaped(l, width, height) && 0 <= j < height * width
    ensures |Flatten(Overwrite(l, width, height, values), width)| == |Flatten(l, width)| == height * width
    ensures Flatten(Overwrite(l, width, height, values), width)[j] ==
              if j < |values| then values[j] else Flatten(l, width)[j]
  {
    var r := Overwrite(l, width, height, values);
    var y, x := j / width, j % width;
    assert j == y * width + x;
    QuotientBelow(j, width, height);
    FlattenAt(r, width, x, y);
    FlattenAt(l, width, x, y);
  }

  /** The cell tokens of one layer's text. */
  function Tokens(text: string): seq<string>
  {
    Split(text, CellSeparator)
  }

  /** A layer's text supplies a readable token for each of `count` cells. */
  predicate Readable(text: string, count: nat)
  {
    var tokens := Tokens(text);
    count <= |tokens| && forall j :: 0 <= j < count ==> ParseInt(tokens[j]).Some?
  }

  /** Every text in `texts[lo..hi)` is readable. */
  predicate AllReadable(texts: seq<string>, lo: int, hi: int, count: nat)
    requires 0 <= lo && hi <= |texts|
  {
    forall k :: lo <= k < hi ==> Readable(texts[k], count)
  }

  /** A readable first text does not change whether a range is readable. */
  lemma AllReadableFrom(texts: seq<string>, i: nat, hi: int, count: nat)
    requires i < hi <= |texts| && Readable(texts[i], count)
    ensures AllReadable(texts, i, hi, count) <==> AllReadable(texts, i + 1, hi, count)
  {
  }

  /** `layer` holds, row-major, the values its text spells. */
  predicate Holds(l: Layer, width: int, text: string)
    requires width > 0 && forall y :: 0 <= y < |l| ==> |l[y]| == width
  {
    var cells := Flatten(l, width);
    var tokens := Tokens(text);
    |cells| <= |tokens| && forall j :: 0 <= j < |cells| ==> ParseInt(tokens[j]) == Some(cells[j])
  }

  /** `addLayer()` until there are at least `n` layers. */
  function GrowTo(g: Grid, n: int): (r: Grid)
    requires Valid(g)
    ensures Valid(r)
    ensures r.width == g.width && r.height == g.height && r.cellSize == g.cellSize
    ensures r.gridlineWeight == g.gridlineWeight && r.values == g.values
    ensures |r.layers| == if n > |g.layers| then n else |g.layers|
    ensures forall k :: 0 <= k < |g.layers| ==> r.layers[k] == g.layers[k]
    ensures forall k :: |g.layers| <= k < |r.layers| ==> r.layers[k] == ConstLayer(g.width, g.height, 0)
    decreases n - |g.layers|
  {
    if |g.layers| >= n then g
    else
      var a := AddLayer(g);
      assert forall k :: 0 <= k < |g.layers| ==> a.layers[k] == a.layers[..|g.layers|][k];
      GrowTo(a, n)
  }

  /** Loading text `i` into layer `i`: the cells it yields, row-major, up
      to its first bad token. */
  function LoadStep(g: Grid, texts: seq<string>, i: nat): (r: Grid)
    requires Valid(g) && i < |texts| <= |g.layers|
    ensures Valid(r) && SameShape(g, r) && r.values == g.values
    ensures forall k :: 0 <= k < |g.layers| && k != i ==> r.layers[k] == g.layers[k]
  {
    var read := ReadCells(Tokens(texts[i]), g.width * g.height);
    g.(layers := g.layers[i := Overwrite(g.layers[i], g.width, g.height, read.values)])
  }

  /** The loading loop from layer `i` on: each text in turn overwrites its
      layer, row-major, until a text runs out of tokens or holds a token
      `parseInt` rejects. */
  function LoadLayers(g: Grid, texts: seq<string>, i: nat): (r: LoadOutcome)
    requires Valid(g) && |texts| <= |g.layers| && i <= |texts|
    ensures Valid(r.grid) && SameShape(g, r.grid) && r.grid.values == g.values
    decreases |texts| - i
  {
    if i == |texts| then LoadOutcome(g, None)
    else
      var read := ReadCells(Tokens(texts[i]), g.width * g.height);
      if read.error.Some? then LoadOutcome(LoadStep(g, texts, i), read.error)
      else LoadLayers(LoadStep(g, texts, i), texts, i + 1)
  }

  /** What the loading loop from layer `i` on did to `g` when it ended
      with `r`: it succeeded exactly when every remaining text is readable,
      and otherwise failed with the error of reading the first unreadable
      text, ArrayIndexOutOfBounds or NumberFormat; it left
      the layers before `i` and past the texts alone; each layer up to and
      including the first unreadable text holds what its text yields
      written over the old cells, and every later one is left alone. */
  ghost predicate LoadEffect(g: Grid, texts: seq<string>, i: nat, r: LoadOutcome)
  {
    var n := g.width * g.height;
    && Valid(g) && i <= |texts| <= |g.layers| && |r.grid.layers| == |g.layers|
    && (r.error.None? <==> AllReadable(texts, i, |texts|, n))
    && (r.error.Some? ==> r.error == Some(ArrayIndexOutOfBounds) || r.error == Some(NumberFormat))
    && (r.error.Some? ==> exists k :: i <= k < |texts| && AllReadable(texts, i, k, n) && !Readable(texts[k], n)
                                     && r.error == ReadCells(Tokens(texts[k]), n).error)
    && (forall k :: 0 <= k < |g.layers| && (k < i || k >= |texts|) ==> r.grid.layers[k] == g.layers[k])
    && (forall k :: i <= k < |texts| && AllReadable(texts, i, k, n) ==>
          r.grid.layers[k] == Overwrite(g.layers[k], g.width, g.height, ReadCells(Tokens(texts[k]), n).values))
    && (forall k :: i <= k < |texts| && !AllReadable(texts, i, k, n) ==> r.grid.layers[k] == g.layers[k])
  }

  /** The loop stops at an unreadable text, keeping the part of it read. */
  lemma LoadStopsAt(g: Grid, texts: seq<string>, i: nat)
    requires Valid(g) && i < |texts| <= |g.layers| && !Readable(texts[i], g.width * g.height)
    ensures LoadEffect(g, texts, i, LoadLayers(g, texts, i))
  {
    var n := g.width * g.height;
    var r := LoadLayers(g, texts, i);
    assert r == LoadOutcome(LoadStep(g, texts, i), ReadCells(Tokens(texts[i]), n).error);
    assert AllReadable(texts, i, i, n);
    forall k | i < k <= |texts|
      ensures !AllReadable(texts, i, k, n)
    {
      assert !Readable(texts[i], n);
    }
  }

  /** A readable text is loaded whole and the loop goes on. */
  lemma LoadContinuesPast(g: Grid, texts: seq<string>, i: nat)
    requires Valid(g) && i < |texts| <= |g.layers| && Readable(texts[i], g.width * g.height)
    requires LoadEffect(LoadStep(g, texts, i), texts, i + 1, LoadLayers(LoadStep(g, texts, i), texts, i + 1))
    ensures LoadEffect(g, texts, i, LoadLayers(g, texts, i))
  {
    var n := g.width * g.height;
    var g' := LoadStep(g, texts, i);
    var r := LoadLayers(g, texts, i);
    assert r == LoadLayers(g', texts, i + 1);
    forall k | i + 1 <= k <= |texts|
      ensures AllReadable(texts, i, k, n) <==> AllReadable(texts, i + 1, k, n)
    {
      AllReadableFrom(texts, i, k, n);
    }
    assert AllReadable(texts, i, i, n);
    forall k | i <= k < |texts| && AllReadable(texts, i, k, n)
      ensures r.grid.layers[k] == Overwrite(g.layers[k], g.width, g.height, ReadCells(Tokens(texts[k]), n).values)
    {
      if k > i {
        assert g'.layers[k] == g.layers[k];
      }
    }
  }

  /** The loading loop from layer `i` on has the effect `LoadEffect`
      describes. */
  lemma {:induction false} LoadLayersEffect(g: Grid, texts: seq<string>, i: nat)
    requires Valid(g) && |texts| <= |g.layers| && i <= |texts|
    ensures LoadEffect(g, texts, i, LoadLayers(g, texts, i))
    decreases |texts| - i
  {
    var n := g.width * g.height;
    if i < |texts| {
      if Readable(texts[i], n) {
        LoadLayersEffect(LoadStep(g, texts, i), texts, i + 1);
        LoadContinuesPast(g, texts, i);
      } else {
        LoadStopsAt(g, texts, i);
      }
    }
  }

  /** How a load ended: the grid as the load left it, and the exception
      that stopped it, if any. */
  datatype LoadOutcome = LoadOutcome(grid: Grid, error: Option<GridError>)

  /** `loadGrid(gridData)`. The layer count never decreases: layers are
      added until there is one per text. Layers past the last text are not
      touched, layers added are all zero until loaded, and the value table,
      the dimensions and the geometry stay as they were. The load succeeds
      exactly when every layer text is readable, and then every loaded
      layer holds what its text spells. A failure raises the error of
      reading the first unreadable text; every layer up to and including
      that text has its text's values written over it, row-major, and every
      layer after it is as it was before the load. */
  function LoadGrid(g: Grid, data: string): (r: LoadOutcome)
    requires Valid(g)
    ensures Valid(r.grid) && r.grid.values == g.values
    ensures r.grid.width == g.width && r.grid.height == g.height
    ensures r.grid.cellSize == g.cellSize && r.grid.gridlineWeight == g.gridlineWeight
    ensures var texts := Split(data, LayerSeparator);
            |r.grid.layers| == if |texts| > |g.layers| then |texts| else |g.layers|
    ensures var texts := Split(data, LayerSeparator);
            forall k :: |texts| <= k < |g.layers| ==> r.grid.layers[k] == g.layers[k]
    ensures var texts := Split(data, LayerSeparator);
            r.error.None? <==> AllReadable(texts, 0, |texts|, g.width * g.height)
    ensures r.error.Some? ==> r.error == Some(ArrayIndexOutOfBounds) || r.error == Some(NumberFormat)
    ensures var texts, n := Split(data, LayerSeparator), g.width * g.height;
            r.error.Some? ==> exists k :: 0 <= k < |texts| && AllReadable(texts, 0, k, n) && !Readable(texts[k], n)
                                         && r.error == ReadCells(Tokens(texts[k]), n).error
    ensures var texts, n := Split(data, LayerSeparator), g.width * g.height;
            forall k :: 0 <= k < |texts| && AllReadable(texts, 0, k, n) ==>
              r.grid.layers[k] == Overwrite(LayerBefore(g, k), g.width, g.height, ReadCells(Tokens(texts[k]), n).values)
    ensures var texts := Split(data, LayerSeparator);
            r.error.None? ==> forall k :: 0 <= k < |texts| ==> Holds(r.grid.layers[k], g.width, texts[k])
    ensures var texts := Split(data, LayerSeparator);
            forall k :: 0 <= k < |texts| && !AllReadable(texts, 0, k, g.width * g.height) ==>
              r.grid.layers[k] == LayerBefore(g, k)
  {
    var texts := Split(data, LayerSeparator);
    var grown := GrowTo(g, |texts|);
    var r := LoadLayers(grown, texts, 0);
    LoadLayersEffect(grown, texts, 0);
    LoadedLayersHold(grown, texts);
    LoadErrorOfGrown(g, texts);
    LayersOfGrown(g, texts);
    r
  }

  /** The error of a failed `LoadGrid`: that of reading the first
      unreadable text. */
  lemma LoadErrorOfGrown(g: Grid, texts: seq<string>)
    requires Valid(g)
    ensures var r, n := LoadLayers(GrowTo(g, |texts|), texts, 0), g.width * g.height;
            r.error.Some? ==> exists k :: 0 <= k < |texts| && AllReadable(texts, 0, k, n) && !Readable(texts[k], n)
                                         && r.error == ReadCells(Tokens(texts[k]), n).error
  {
    var grown := GrowTo(g, |texts|);
    LoadLayersEffect(grown, texts, 0);
    assert grown.width * grown.height == g.width * g.height;
  }

  /** Layer `k` as `loadGrid` finds it once the missing layers are added:
      the grid's own layer, or zeros past the grid's layers. */
  function LayerBefore(g: Grid, k: nat): (l: Layer)
    requires Valid(g)
    ensures Shaped(l, g.width, g.height)
  {
    if k < |g.layers| then g.layers[k] else ConstLayer(g.width, g.height, 0)
  }

  /** After `LoadGrid`, each layer up to and including the first unreadable
      text has its text's values written over the layer it had before the
      load, or over zeros if it was added; each later layer is still that
      layer. */
  lemma LayersOfGrown(g: Grid, texts: seq<string>)
    requires Valid(g)
    ensures var r, n := LoadLayers(GrowTo(g, |texts|), texts, 0), g.width * g.height;
            forall k :: 0 <= k < |texts| && AllReadable(texts, 0, k, n) ==>
              r.grid.layers[k] == Overwrite(LayerBefore(g, k), g.width, g.height, ReadCells(Tokens(texts[k]), n).values)
    ensures var r, n := LoadLayers(GrowTo(g, |texts|), texts, 0), g.width * g.height;
            forall k :: 0 <= k < |texts| && !AllReadable(texts, 0, k, n) ==> r.grid.layers[k] == LayerBefore(g, k)
  {
    var r, n := LoadLayers(GrowTo(g, |texts|), texts, 0), g.width * g.height;
    forall k | 0 <= k < |texts|
      ensures r.grid.layers[k] == if AllReadable(texts, 0, k, n)
                                  then Overwrite(LayerBefore(g, k), g.width, g.height, ReadCells(Tokens(texts[k]), n).values)
                                  else LayerBefore(g, k)
    {
      LayerOfGrown(g, texts, k);
    }
  }

  /** One layer of `LayersOfGrown`. */
  lemma LayerOfGrown(g: Grid, texts: seq<string>, k: nat)
    requires Valid(g) && k < |texts|
    ensures var r, n := LoadLayers(GrowTo(g, |texts|), texts, 0), g.width * g.height;
            r.grid.layers[k] == if AllReadable(texts, 0, k, n)
                                then Overwrite(LayerBefore(g, k), g.width, g.height, ReadCells(Tokens(texts[k]), n).values)
                                else LayerBefore(g, k)
  {
    var grown := GrowTo(g, |texts|);
    LoadLayersEffect(grown, texts, 0);
    assert grown.layers[k] == LayerBefore(g, k);
  }

  /** After a load without error, every loaded layer holds what its text
      spells. */
  lemma LoadedLayersHold(g: Grid, texts: seq<string>)
    requires Valid(g) && |texts| <= |g.layers|
    ensures var r := LoadLayers(g, texts, 0);
            r.error.None? ==> forall k :: 0 <= k < |texts| ==> Holds(r.grid.layers[k], g.width, texts[k])
  {
    var r := LoadLayers(g, texts, 0);
    var n := g.width * g.height;
    LoadLayersEffect(g, texts, 0);
    if r.error.None? {
      forall k | 0 <= k < |texts|
        ensures Holds(r.grid.layers[k], g.width, texts[k])
      {
        assert AllReadable(texts, 0, k, n);
        assert Readable(texts[k], n);
        var read := ReadCells(Tokens(texts[k]), n);
        FlattenOverwrite(g.layers[k], g.width, g.height, read.values);
      }
    }
  }

  /** Reading back the tokens written for a run of values gives the values. */
  lemma {:induction false} ReadCellsOfRender(cells: seq<Int32>)
    ensures ReadCells(Render(cells), |cells|) == CellRead(cells, None)
    decreases |cells|
  {
    if |cells| > 0 {
      ParseIntOfText(cells[0]);
      assert Render(cells)[1..] == Render(cells[1..]);
      ReadCellsOfRender(cells[1..]);
      assert cells == [cells[0]] + cells[1..];
    }
  }

  /** A saved layer text is readable, and what it yields, written over the
      layer, gives the layer back. */
  lemma SavedLayerReadsBack(l: Layer, width: int, height: int)
    requires width > 0 && height > 0 && Shaped(l, width, height)
    ensures Readable(SaveLayer(l, width), width * height)
    ensures Overwrite(l, width, height, ReadCells(Tokens(SaveLayer(l, width)), width * height).values) == l
  {
    var cells := Flatten(l, width);
    var tokens := Tokens(SaveLayer(l, width));
    assert tokens == Render(cells);
    assert |cells| == width * height;
    ReadCellsOfRender(cells);
    assert ReadCells(tokens, width * height) == CellRead(cells, None);
    OverwriteWithOwnCells(l, width, height);
  }

  /** Every saved layer text is readable and reads back as its layer. */
  lemma SavedTextsReadBack(g: Grid)
    requires Valid(g)
    ensures forall k :: 0 <= k < |g.layers| ==>
              && Readable(LayerTexts(g)[k], g.width * g.height)
              && Overwrite(g.layers[k], g.width, g.height,
                           ReadCells(Tokens(LayerTexts(g)[k]), g.width * g.height).values) == g.layers[k]
  {
    forall k | 0 <= k < |g.layers|
      ensures Readable(LayerTexts(g)[k], g.width * g.height)
      ensures Overwrite(g.layers[k], g.width, g.height,
                        ReadCells(Tokens(LayerTexts(g)[k]), g.width * g.height).values) == g.layers[k]
    {
      var l := g.layers[k];
      SavedLayerReadsBack(l, g.width, g.height);
      assert LayerTexts(g)[k] == SaveLayer(l, g.width);
    }
  }

  /** Loading texts that each read back as the layer they land on leaves
      the grid as it was and raises nothing. */
  lemma LoadOfOwnTexts(g: Grid, texts: seq<string>)
    requires Valid(g) && |texts| == |g.layers|
    requires forall k :: 0 <= k < |texts| ==>
               && Readable(texts[k], g.width * g.height)
               && Overwrite(g.layers[k], g.width, g.height,
                            ReadCells(Tokens(texts[k]), g.width * g.height).values) == g.layers[k]
    ensures LoadLayers(g, texts, 0) == LoadOutcome(g, None)
  {
    var n := g.width * g.height;
    var r := LoadLayers(g, texts, 0);
    LoadLayersEffect(g, texts, 0);
    assert AllReadable(texts, 0, |texts|, n);
    forall k | 0 <= k < |g.layers|
      ensures r.grid.layers[k] == g.layers[k]
    {
      assert AllReadable(texts, 0, k, n);
    }
    assert r.grid.layers == g.layers;
  }

  /** Loading what `saveGrid` wrote leaves the grid exactly as it was and
      raises nothing. */
  lemma LoadOfSave(g: Grid)
    requires Valid(g)
    ensures LoadGrid(g, SaveGrid(g)) == LoadOutcome(g, None)
  {
    var texts := LayerTexts(g);
    assert GrowTo(g, |texts|) == g;
    SavedTextsReadBack(g);
    LoadOfOwnTexts(g, texts);
  }

  lemma LoadEdgeCases(g: Grid)
    requires Valid(g)
    ensures LoadGrid(g, ":") == LoadOutcome(g, None)
    ensures LoadGrid(g, "") == LoadOutcome(g, Some(NumberFormat))
  {
    SplitExamples();
    var n := g.width * g.height;
    assert n > 0 by {
      MulMonotone(1, g.width, g.height);
    }
    assert ParseInt("") == None;
    assert ReadCells(Tokens(""), n) == CellRead([], Some(NumberFormat));
    var r := LoadGrid(g, "");
    assert !Readable("", n);
    OverwriteNothing(g.layers[0], g.width, g.height);
    assert r.grid.layers[0] == g.layers[0];
    assert r.grid.layers == g.layers;
  }

  /** Writing no values leaves a layer as it was. */
  lemma OverwriteNothing(l: Layer, width: int, height: int)
    requires width > 0 && Shaped(l, width, height)
    ensures Overwrite(l, width, height, []) == l
  {
    var r := Overwrite(l, width, height, []);
    forall y | 0 <= y < height
      ensures r[y] == l[y]
    {
    }
  }
}

=== FILE: pointer.dfy ===
/**
 * The panel geometry of `GridPanel`: where each cell's box is painted, how
 * large the panel is, and which cell (if any) a panel-local pixel maps to
 * in `getMouseCell`.
 *
 * Pixels are non-negative panel-local coordinates, the only ones the host
 * reports for a pointer over the panel; for those, Java's truncating `/`
 * and `%` agree with Dafny's. 32-bit overflow of the pixel arithmetic is
 * not modelled.
 */
module Pointer {
  import opened Basics

  /** The pixel coordinate where the box of cell `index` begins along one
      axis: past `index` cells and `index + 1` gridlines. */
  function CellOrigin(index: int, cellSize: int, gridlineWeight: int): int
  {
    index * (cellSize + gridlineWeight) + gridlineWeight
  }

  /** The panel's size along an axis of `cells` cells. */
  function PanelExtent(cells: int, cellSize: int, gridlineWeight: int): int
  {
    cells * (cellSize + gridlineWeight) + gridlineWeight
  }

  /** Pixel `p` lies in the painted box of cell `index`: the `cellSize`
      pixels filled from the cell's origin. */
  predicate InBox(p: int, index: int, cellSize: int, gridlineWeight: int)
  {
    CellOrigin(index, cellSize, gridlineWeight) <= p < CellOrigin(index, cellSize, gridlineWeight) + cellSize
  }

  /** One axis of the panel walked from pixel 0: a leading gridline, then
      for each cell its box followed by one gridline. The pixel reached
      after `n` cells. */
  function Walk(n: nat, cellSize: int, gridlineWeight: int): int
    decreases n
  {
    if n == 0 then gridlineWeight else Walk(n - 1, cellSize, gridlineWeight) + cellSize + gridlineWeight
  }

  /** The box of cell `n` begins where the walk past `n` cells arrives, and
      a panel of `n` cells ends there: past the last box and one gridline. */
  lemma {:induction false} BoxesLaidEndToEnd(n: nat, cellSize: int, gridlineWeight: int)
    ensures CellOrigin(n, cellSize, gridlineWeight) == Walk(n, cellSize, gridlineWeight)
    ensures PanelExtent(n, cellSize, gridlineWeight) == Walk(n, cellSize, gridlineWeight)
    decreases n
  {
    if n > 0 {
      BoxesLaidEndToEnd(n - 1, cellSize, gridlineWeight);
      assert n * (cellSize + gridlineWeight) == (n - 1) * (cellSize + gridlineWeight) + cellSize + gridlineWeight;
    }
  }

  /** Every box of a grid of `n` cells lies inside the panel, clear of the
      leading gridline and of the gridline after it. */
  lemma BoxesInsidePanel(n: int, index: int, cellSize: int, gridlineWeight: int)
    requires cellSize > 0 && gridlineWeight >= 0 && 0 <= index < n
    ensures gridlineWeight <= CellOrigin(index, cellSize, gridlineWeight)
    ensures CellOrigin(index, cellSize, gridlineWeight) + cellSize + gridlineWeight <= PanelExtent(n, cellSize, gridlineWeight)
  {
    var pitch := cellSize + gridlineWeight;
    assert index * pitch >= 0;
    MultipleAwayFromZero(n - index, pitch);
    assert PanelExtent(n, cellSize, gridlineWeight) - CellOrigin(index, cellSize, gridlineWeight) == (n - index) * pitch;
  }

  /** No pixel lies in two boxes. */
  lemma BoxesDisjoint(p: int, i: int, j: int, cellSize: int, gridlineWeight: int)
    requires cellSize > 0 && gridlineWeight >= 0
    requires InBox(p, i, cellSize, gridlineWeight) && InBox(p, j, cellSize, gridlineWeight)
    ensures i == j
  {
    var pitch := cellSize + gridlineWeight;
    assert CellOrigin(j, cellSize, gridlineWeight) - CellOrigin(i, cellSize, gridlineWeight) == (j - i) * pitch;
    MultipleAwayFromZero(j - i, pitch);
  }

  /** `getMouseCell()`: the cell under the pointer, or null when there is no
      pointer over the panel or it is over a gridline. The pixel at local
      offset exactly `gridlineWeight` counts as gridline. */
  function MouseCell(cellSize: int, gridlineWeight: int, pos: Option<Point>): (r: Option<Point>)
    requires cellSize > 0 && gridlineWeight >= 0
    requires pos.Some? ==> pos.value.x >= 0 && pos.value.y >= 0
    ensures pos.None? ==> r.None?
    ensures r.Some? ==> r.value.x >= 0 && r.value.y >= 0
    ensures r.Some? ==> && InBox(pos.value.x, r.value.x, cellSize, gridlineWeight)
                        && InBox(pos.value.y, r.value.y, cellSize, gridlineWeight)
    ensures r.Some? ==> && pos.value.x != CellOrigin(r.value.x, cellSize, gridlineWeight)
                        && pos.value.y != CellOrigin(r.value.y, cellSize, gridlineWeight)
  {
    if pos.None? then None
    else
      var pitch := cellSize + gridlineWeight;
      var x, y := pos.value.x / pitch, pos.value.y / pitch;
      var cellX, cellY := pos.value.x % pitch, pos.value.y % pitch;
      AxisSplit(pos.value.x, cellSize, gridlineWeight);
      AxisSplit(pos.value.y, cellSize, gridlineWeight);
      if cellX > gridlineWeight && cellY > gridlineWeight then Some(Point(x, y)) else None
  }

  /** Euclidean division is determined by quotient and remainder. */
  lemma DivModUnique(p: int, pitch: int, q: int, m: int)
    requires pitch > 0 && p == q * pitch + m && 0 <= m < pitch
    ensures p / pitch == q && p % pitch == m
  {
    var q', m' := p / pitch, p % pitch;
    assert (q - q') * pitch == m' - m;
    MultipleAwayFromZero(q - q', pitch);
  }

  /** One axis of a pixel: its quotient and remainder place it at
      `CellOrigin(q) - gridlineWeight + m`. */
  lemma AxisSplit(p: int, cellSize: int, gridlineWeight: int)
    requires cellSize > 0 && gridlineWeight >= 0 && p >= 0
    ensures p / (cellSize + gridlineWeight) >= 0
    ensures p == CellOrigin(p / (cellSize + gridlineWeight), cellSize, gridlineWeight) - gridlineWeight + p % (cellSize + gridlineWeight)
    ensures 0 <= p % (cellSize + gridlineWeight) < cellSize + gridlineWeight
  {
  }

  /** Along one axis, a pixel is past the origin of cell `c` and inside its
      box exactly when its quotient is `c` and its remainder exceeds the
      gridline weight. */
  lemma {:induction false} AxisMapsToCell(p: int, c: int, cellSize: int, gridlineWeight: int)
    requires cellSize > 0 && gridlineWeight >= 0 && p >= 0
    ensures (p / (cellSize + gridlineWeight) == c && p % (cellSize + gridlineWeight) > gridlineWeight)
            <==> (InBox(p, c, cellSize, gridlineWeight) && p != CellOrigin(c, cellSize, gridlineWeight))
  {
    var pitch := cellSize + gridlineWeight;
    AxisSplit(p, cellSize, gridlineWeight);
    if InBox(p, c, cellSize, gridlineWeight) && p != CellOrigin(c, cellSize, gridlineWeight) {
      DivModUnique(p, pitch, c, p - c * pitch);
    }
  }

  /** The pixels mapped to a cell are exactly those of its painted box
      except the first row and column of the box. */
  lemma MouseCellExactly(cellSize: int, gridlineWeight: int, px: int, py: int, cx: int, cy: int)
    requires cellSize > 0 && gridlineWeight >= 0 && px >= 0 && py >= 0
    ensures MouseCell(cellSize, gridlineWeight, Some(Point(px, py))) == Some(Point(cx, cy))
            <==> && InBox(px, cx, cellSize, gridlineWeight) && px != CellOrigin(cx, cellSize, gridlineWeight)
                 && InBox(py, cy, cellSize, gridlineWeight) && py != CellOrigin(cy, cellSize, gridlineWeight)
  {
    AxisMapsToCell(px, cx, cellSize, gridlineWeight);
    AxisMapsToCell(py, cy, cellSize, gridlineWeight);
  }

  /** A pixel inside the panel maps, if at all, to a cell of the grid. */
  lemma MouseCellInBounds(width: int, height: int, cellSize: int, gridlineWeight: int, px: int, py: int)
    requires width > 0 && height > 0 && cellSize > 0 && gridlineWeight >= 0
    requires 0 <= px < PanelExtent(width, cellSize, gridlineWeight)
    requires 0 <= py < PanelExtent(height, cellSize, gridlineWeight)
    ensures var r := MouseCell(cellSize, gridlineWeight, Some(Point(px, py)));
            r.Some? ==> 0 <= r.value.x < width && 0 <= r.value.y < height
  {
    var r := MouseCell(cellSize, gridlineWeight, Some(Point(px, py)));
    var pitch := cellSize + gridlineWeight;
    if r.Some? {
      var c := r.value;
      assert c.x * pitch < width * pitch;
      assert c.y * pitch < height * pitch;
    }
  }

  /** With 50-pixel cells and 5-pixel gridlines, pixels 5 and 55 are on a
      gridline boundary and map to no cell; pixel 6 is in cell 0. */
  lemma MouseCellExamples()
    ensures MouseCell(50, 5, Some(Point(5, 5))) == None
    ensures MouseCell(50, 5, Some(Point(6, 6))) == Some(Point(0, 0))
    ensures MouseCell(50, 5, Some(Point(55, 55))) == None
    ensures MouseCell(50, 5, Some(Point(61, 6))) == Some(Point(1, 0))
    ensures MouseCell(50, 5, None) == None
  {
  }

  /** The first pixel of every painted box is filled by the painter but is
      not mapped to its cell. */
  lemma MouseCellMissesBoxOrigin(cellSize: int, gridlineWeight: int, cx: int, cy: int)
    requires cellSize > 0 && gridlineWeight >= 0 && cx >= 0 && cy >= 0
    ensures InBox(CellOrigin(cx, cellSize, gridlineWeight), cx, cellSize, gridlineWeight)
    ensures MouseCell(cellSize, gridlineWeight,
                      Some(Point(CellOrigin(cx, cellSize, gridlineWeight), CellOrigin(cy, cellSize, gridlineWeight)))).None?
  {
    var px, py := CellOrigin(cx, cellSize, gridlineWeight), CellOrigin(cy, cellSize, gridlineWeight);
    assert px >= 0 && py >= 0 by {
      assert cx * (cellSize + gridlineWeight) >= 0;
      assert cy * (cellSize + gridlineWeight) >= 0;
    }
    var r := MouseCell(cellSize, gridlineWeight, Some(Point(px, py)));
    if r.Some? {
      MouseCellExactly(cellSize, gridlineWeight, px, py, r.value.x, r.value.y);
      MouseCellExactly(cellSize, gridlineWeight, px, py, cx, cy);
      DivModUnique(px, cellSize + gridlineWeight, cx, gridlineWeight);
      AxisMapsToCell(px, cx, cellSize, gridlineWeight);
    }
  }

  /** `getMouseCell` with the remainder test `>=` in place of `>`, so that
      a pixel maps to a cell exactly when the painter fills it for that
      cell. */
  function MouseCellCorrected(cellSize: int, gridlineWeight: int, pos: Option<Point>): (r: Option<Point>)
    requires cellSize > 0 && gridlineWeight >= 0
    requires pos.Some? ==> pos.value.x >= 0 && pos.value.y >= 0
    ensures pos.None? ==> r.None?
    ensures r.Some? ==> && InBox(pos.value.x, r.value.x, cellSize, gridlineWeight)
                        && InBox(pos.value.y, r.value.y, cellSize, gridlineWeight)
  {
    if pos.None? then None
    else
      var pitch := cellSize + gridlineWeight;
      AxisSplit(pos.value.x, cellSize, gridlineWeight);
      AxisSplit(pos.value.y, cellSize, gridlineWeight);
      if pos.value.x % pitch >= gridlineWeight && pos.value.y % pitch >= gridlineWeight
      then Some(Point(pos.value.x / pitch, pos.value.y / pitch))
      else None
  }

  /** With the corrected test, a pixel maps to a cell exactly when it lies
      in that cell's painted box. */
  lemma MouseCellCorrectedMatchesBoxes(cellSize: int, gridlineWeight: int, px: int, py: int, cx: int, cy: int)
    requires cellSize > 0 && gridlineWeight >= 0 && px >= 0 && py >= 0
    ensures MouseCellCorrected(cellSize, gridlineWeight, Some(Point(px, py))) == Some(Point(cx, cy))
            <==> InBox(px, cx, cellSize, gridlineWeight) && InBox(py, cy, cellSize, gridlineWeight)
  {
    var pitch := cellSize + gridlineWeight;
    AxisSplit(px, cellSize, gridlineWeight);
    AxisSplit(py, cellSize, gridlineWeight);
    if InBox(px, cx, cellSize, gridlineWeight) && InBox(py, cy, cellSize, gridlineWeight) {
      DivModUnique(px, pitch, cx, px - cx * pitch);
      DivModUnique(py, pitch, cy, py - cy * pitch);
    }
  }
}

=== FILE: text.dfy ===
/**
 * Joining strings with a one-character separator, as the save format's
 * `StringBuilder` loops do, and splitting them again with Java's
 * `String.split` on a one-character pattern, including its two quirks: a
 * text without the separator splits into itself (so "" gives [""]), and
 * trailing empty fields are dropped (so ":" gives no fields at all).
 */
module Text {

  /** `parts` with `sep` between each neighbouring pair: the text opens
      with the first part, followed by the separator when more parts come.
      `Fields` undoes it (`FieldsOfJoin`). */
  function Join(parts: seq<string>, sep: char): (s: string)
    requires |parts| >= 1
    ensures |s| >= |parts[0]| && s[..|parts[0]|] == parts[0]
    ensures |parts| >= 2 ==> |s| > |parts[0]| && s[|parts[0]|] == sep
    decreases |parts|
  {
    if |parts| == 1 then parts[0] else parts[0] + [sep] + Join(parts[1..], sep)
  }

  function FirstIndexOf(s: string, c: char): (i: nat)
    requires c in s
    ensures i < |s| && s[i] == c && c !in s[..i]
  {
    if s[0] == c then 0
    else
      var j := FirstIndexOf(s[1..], c);
      assert s[..j + 1] == [s[0]] + s[1..][..j];
      j + 1
  }

  /** Every field between separators, empty ones included. */
  function Fields(s: string, sep: char): (parts: seq<string>)
    ensures |parts| >= 1
    ensures forall i :: 0 <= i < |parts| ==> sep !in parts[i]
    ensures Join(parts, sep) == s
    decreases |s|
  {
    if sep !in s then [s]
    else
      var i := FirstIndexOf(s, sep);
      var rest := Fields(s[i + 1..], sep);
      var parts := [s[..i]] + rest;
      assert parts[1..] == rest;
      assert s == s[..i] + [sep] + s[i + 1..];
      parts
  }

  /** `parts` without its run of trailing empty strings. */
  function DropTrailingEmpty(parts: seq<string>): (r: seq<string>)
    ensures |r| <= |parts| && r == parts[..|r|]
    ensures |r| > 0 ==> r[|r| - 1] != ""
    ensures forall i :: |r| <= i < |parts| ==> parts[i] == ""
    decreases |parts|
  {
    if |parts| == 0 || parts[|parts| - 1] != "" then parts
    else DropTrailingEmpty(parts[..|parts| - 1])
  }

  /** `s.split(String.valueOf(sep))`. */
  function Split(s: string, sep: char): (r: seq<string>)
    ensures forall i :: 0 <= i < |r| ==> sep !in r[i]
    ensures sep !in s ==> r == [s]
    ensures sep in s ==> |r| == 0 || r[|r| - 1] != ""
    ensures sep in s ==> |r| <= |Fields(s, sep)| && r == Fields(s, sep)[..|r|]
    ensures sep in s ==> forall i :: |r| <= i < |Fields(s, sep)| ==> Fields(s, sep)[i] == ""
  {
    if sep !in s then [s] else DropTrailingEmpty(Fields(s, sep))
  }

  lemma {:induction false} JoinAvoids(parts: seq<string>, sep: char, c: char)
    requires |parts| >= 1 && c != sep
    requires forall i :: 0 <= i < |parts| ==> c !in parts[i]
    ensures c !in Join(parts, sep)
    decreases |parts|
  {
    if |parts| > 1 {
      JoinAvoids(parts[1..], sep, c);
    }
  }

  /** Splitting a join into all its fields gives the parts back when no
      part contains the separator. */
  lemma {:induction false} FieldsOfJoin(parts: seq<string>, sep: char)
    requires |parts| >= 1
    requires forall i :: 0 <= i < |parts| ==> sep !in parts[i]
    ensures Fields(Join(parts, sep), sep) == parts
    decreases |parts|
  {
    var s := Join(parts, sep);
    if |parts| > 1 {
      var p := parts[0];
      var rest := Join(parts[1..], sep);
      assert s == p + [sep] + rest;
      var i := FirstIndexOf(s, sep);
      assert s[|p|] == sep;
      assert forall j :: 0 <= j < |p| ==> s[j] == p[j];
      assert i == |p|;
      assert s[..i] == p;
      assert s[i + 1..] == rest;
      FieldsOfJoin(parts[1..], sep);
    }
  }

  /** `split` undoes `Join` when no part contains the separator and the
      last part is not empty. */
  lemma SplitOfJoin(parts: seq<string>, sep: char)
    requires |parts| >= 1 && parts[|parts| - 1] != ""
    requires forall i :: 0 <= i < |parts| ==> sep !in parts[i]
    ensures Split(Join(parts, sep), sep) == parts
  {
    if |parts| > 1 {
      FieldsOfJoin(parts, sep);
    }
  }

  /** `split` on a few texts: the separator alone splits into nothing, an
      empty text into one empty field, and trailing separators are lost. */
  lemma SplitExamples()
    ensures Split(":", ':') == []
    ensures Split("", ':') == [""]
    ensures Split(":7", ':') == ["", "7"]
  {
    assert Fields(":", ':') == ["", ""] by {
      assert FirstIndexOf(":", ':') == 0;
      assert ":"[1..] == "";
    }
    assert Fields(":7", ':') == ["", "7"] by {
      assert FirstIndexOf(":7", ':') == 0;
      assert ":7"[1..] == "7";
    }
  }

  /** Trailing separators are lost: the saved text of one layer followed by
      two empty layers reads back as that one layer. */
  lemma SplitDropsTrailingFields()
    ensures Split("1 2::", ':') == ["1 2"]
  {
    var s := "1 2::";
    assert FirstIndexOf(s, ':') == 3 by {
      assert s[0] != ':' && s[1] != ':' && s[2] != ':' && s[3] == ':';
      assert s[1..][1..][1..] == "::";
    }
    assert s[..3] == "1 2" && s[4..] == ":";
    assert Fields(":", ':') == ["", ""] by {
      assert FirstIndexOf(":", ':') == 0;
      assert ":"[1..] == "";
    }
    var f := Fields(s, ':');
    assert f == ["1 2", "", ""];
    assert DropTrailingEmpty(f) == ["1 2"] by {
      assert f[..2] == ["1 2", ""];
      assert f[..2][..1] == ["1 2"];
    }
  }
}

=== FILE: value_table.dfy ===
/**
 * The value table of a grid: every integer cell value may be mapped to a
 * `ValueData` appearance (cell colour, text colour, text glyph, image).
 * Entries are created lazily with default appearance and never removed.
 */
module ValueTable {
  import opened Basics

  /** The glyph `'\0'`, meaning "no text". */
  const NoGlyph: char := '\0'

  /** The appearance bound to one cell value. `color` and `image` may be
      null; `textColor` never is, since every write of it rejects null. */
  datatype ValueData = ValueData(color: Option<Color>, textColor: Color, text: char, image: Option<Image>)

  /** What `new ValueData()` creates: white cell, black text, no glyph, no image. */
  const DefaultData: ValueData := ValueData(Some(White), Black, NoGlyph, None)

  /** What the constructor binds to value 0: like the default, but with a
      null colour, so a 0 cell is transparent above layer 0. */
  const ZeroData: ValueData := ValueData(None, Black, NoGlyph, None)

  /** The colour a cell paints when its value is on layer 0: the value's
      own colour, or white in place of null, since nothing lies below
      layer 0. */
  function BaseColor(d: ValueData): (c: Color)
    ensures d.color.Some? ==> c == d.color.value
    ensures d.color.None? ==> c == White
  {
    if d.color.Some? then d.color.value else White
  }

  type Table = map<Int32, ValueData>

  /** The table a fresh grid starts with. */
  function InitialTable(): (t: Table)
    ensures t.Keys == {0}
    ensures t[0].color.None? && t[0].textColor == Black && t[0].text == NoGlyph && t[0].image.None?
  {
    map[0 := ZeroData]
  }

  /** The upsert shape shared by the four setters: `r` has an entry for `v`
      whose other fields are `v`'s old ones (or the defaults if `v` had no
      entry), and every other entry is as it was. `same` says which fields
      of the `v` entry must agree with that base. */
  ghost predicate Upserted(t: Table, r: Table, v: Int32, same: (ValueData, ValueData) -> bool)
  {
    && r.Keys == t.Keys + {v}
    && (forall u :: u in t && u != v ==> r[u] == t[u])
    && same(if v in t then t[v] else DefaultData, r[v])
  }

  /** Creates a default entry for `v` if it has none; an existing entry is
      left alone. */
  function EnsureValueData(t: Table, v: Int32): (r: Table)
    ensures Upserted(t, r, v, (base, e) => e == base)
    ensures t.Keys <= r.Keys
  {
    if v in t then t else t[v := DefaultData]
  }

  /** Sets the cell colour of `v`; a null colour is allowed. */
  function SetColor(t: Table, v: Int32, color: Option<Color>): (r: Table)
    ensures Upserted(t, r, v, (base: ValueData, e: ValueData) => e == base.(color := color))
    ensures r[v].color == color
  {
    var u := EnsureValueData(t, v);
    u[v := u[v].(color := color)]
  }

  /** Sets the text colour of `v`; a null colour raises NullPointerException
      before the table is touched. */
  function SetTextColor(t: Table, v: Int32, textColor: Option<Color>): (r: Result<Table>)
    ensures r.Err? <==> textColor.None?
    ensures r.Err? ==> r.error == NullPointer
    ensures r.Ok? ==> Upserted(t, r.value, v, (base: ValueData, e: ValueData) => e == base.(textColor := textColor.value))
    ensures r.Ok? ==> r.value[v].textColor == textColor.value
  {
    if textColor.None? then Err(NullPointer)
    else
      var u := EnsureValueData(t, v);
      Ok(u[v := u[v].(textColor := textColor.value)])
  }

  /** Sets the glyph of `v`; `'\0'` means no text. */
  function SetText(t: Table, v: Int32, text: char): (r: Table)
    ensures Upserted(t, r, v, (base: ValueData, e: ValueData) => e == base.(text := text))
    ensures r[v].text == text
  {
    var u := EnsureValueData(t, v);
    u[v := u[v].(text := text)]
  }

  /** Sets the image of `v`; a null image means no image. */
  function SetImage(t: Table, v: Int32, image: Option<Image>): (r: Table)
    ensures Upserted(t, r, v, (base: ValueData, e: ValueData) => e == base.(image := image))
    ensures r[v].image == image
  {
    var u := EnsureValueData(t, v);
    u[v := u[v].(image := image)]
  }

  /** Setters of different fields of one value commute, and neither undoes
      the other: the entry ends up with both new fields. */
  lemma ColorAndTextCommute(t: Table, v: Int32, color: Option<Color>, text: char)
    ensures SetText(SetColor(t, v, color), v, text) == SetColor(SetText(t, v, text), v, color)
    ensures SetText(SetColor(t, v, color), v, text)[v].color == color
  {
  }

  /** No setter ever removes an entry. */
  lemma SettersNeverRemove(t: Table, v: Int32, color: Option<Color>, tc: Option<Color>, text: char, image: Option<Image>)
    ensures t.Keys <= SetColor(t, v, color).Keys
    ensures t.Keys <= SetText(t, v, text).Keys
    ensures t.Keys <= SetImage(t, v, image).Keys
    ensures SetTextColor(t, v, tc).Ok? ==> t.Keys <= SetTextColor(t, v, tc).value.Keys
  {
  }
}
